=== FILE: README.md ===
# Kingdom turn reducer in Dafny

This project models the client side of the Kingdom strategy game. That side is a React
application. It sends the player's action to a generative-model service and folds the
service's answer, a `TurnResult`, into the game state. The model covers the following,
each as pure functions on immutable datatypes:

- **Turn reducer.** `handleAction` in `App.tsx`: the guard, the optimistic user log, the
  three entity reconcilers, the resource ledger with the month rollover, and the
  game-over freeze.
- **Around the turn.** The forecast, starting a new game, save and load, the tax change
  and the exit to the menu.
- **Client side of the service.** The pure pieces of `processGameTurn`: init detection,
  the open-rumor filter, the eight-entry history window and the fallback result.
- **Panels.** The selection and validation helpers of the genealogy, map, chronicle and
  finance panels, the world-creation form and the action panel.

The service itself is a parameter. An `Oracle` maps the request the client builds to a
reply: a decoded result, an answer without text, or a failed call. So every property
holds whatever the generative model answers.

Modules, in dependency order:

| module | file | models |
|---|---|---|
| `Types` | types.dfy | the records of `types.ts` (`KingdomStats`, `GameLog`, `WorldEntity`, `Person`, `Rumor`, `PoliticalDivision`, `KingdomBuff`, `SuggestedAction`, `TurnResult`, the update records) |
| `Keyed` | keyed.dfy | the id-keyed list operations the reconcilers use: upsert by `findIndex`, replace-if-present, insert-if-absent, filter by id list |
| `Text` | text.dfy | `String.prototype.trim`, the file-name sanitiser and decimal rendering |
| `Reconcile` | reconcile.dfy | `handleWorldUpdate`, `handlePoliticalUpdate`, `handleBuffsUpdate` |
| `Ledger` | ledger.dfy | months passed, the rollover loop and the clamped new totals |
| `Forecast` | forecast.dfy | `getEstimatedForecast` |
| `Service` | service.dfy | request building and the fallback of `processGameTurn` |
| `AppState` | app_state.dfy | the state held by `App`, its initial values, the session invariant |
| `Turn` | turn.dfy | `handleAction`, `handleTaxChange` |
| `Lifecycle` | lifecycle.dfy | `startNewGame`, `saveGame`, `handleFileUpload`, `exitToMenu` |
| `PoliticsView`, `MapView`, `InfoView`, `EconomyView`, `Forms` | politics_view.dfy, map_view.dfy, info_view.dfy, economy_view.dfy, forms.dfy | the pure helpers of the panels and forms |

Behaviour the model keeps because the code has it:

- Months passed:
  - `monthsPassed || 1` turns both an absent count and a count of 0 into one month.
  - A negative count is used as it is and moves the calendar back.
- A failed or empty service call on an ordinary turn is not an error. The turn logs the
  fallback narrative as an `ai` entry, advances the calendar by one month and leaves
  no choices.
- New family members and new divisions are appended without any id check. Updated ones
  replace the first entry with their id, or are dropped when there is none.
- `exitToMenu` only switches the screen. The game stays in memory.
- Rumors:
  - A rumor that is both delivered new and listed as resolved in the same update is
    inserted unresolved, because resolution runs first.
  - An already known rumor is never overwritten.
- Non-custom actions send the label of their `ActionType`. So the description the
  finance panel builds for an investment never reaches the service or the log.
- On a well-formed world, `processGameTurn` never throws. The call and the decoding sit
  inside its `try` (services/geminiService.ts:298), which returns the fallback. The new
  game's world is the complete initial one, so the `catch` branch of `startNewGame` cannot
  be reached from the call it guards; it is modelled as an outcome of its own. The request
  itself is built before that `try`, and what a malformed loaded world does to it is
  listed under "Left out".

## Model

| member | source | states |
|---|---|---|
| Keyed.IndexOf | App.tsx:213 | `findIndex` by id: -1 exactly when no element has the id, otherwise the position of the first element with it |
| Keyed.FindLast | App.tsx:250-253 | the last element of an update list with a given id exists exactly when some element has the id, and is an element with that id |
| Keyed.UpsertShape | App.tsx:212-218 | one upsert keeps the length when the id is present and appends the entity at the end otherwise; no existing position changes its id |
| Keyed.UpsertFind | App.tsx:212-218 | after one upsert the first entity with the upserted id is the new one; every other id finds what it found before |
| Keyed.UpsertAllFind | App.tsx:211-220 | after upserting a batch, each id finds the last batch entity with that id, or the old entity when the batch has none |
| Keyed.UpsertAllShape | App.tsx:211-220 | a batch upsert never shortens the list, keeps the id at every old position, makes every delivered id present, and keeps the length when all ids were known |
| Keyed.UpsertKeepsUnique | App.tsx:212-218 | one upsert keeps the ids pairwise distinct |
| Keyed.UpsertAllKeepsUnique | App.tsx:211-220 | a batch upsert keeps the ids pairwise distinct |
| Keyed.UpsertOverwrite | App.tsx:212-218 | upserting two entities with the same id is the same as upserting the second alone |
| Keyed.UpsertCommute | App.tsx:212-218 | two upserts with different ids commute when the first id is already present |
| Keyed.UpsertInPlace | App.tsx:214-215 | upserting a present id writes the entity at the first position with that id and moves no id |
| Keyed.UpsertPresent | App.tsx:212-218 | upserting an entity that is already the first with its id changes nothing |
| Keyed.UpsertAbsorbed | App.tsx:212-218 | an upsert of a present id followed by a batch that overwrites the same id has no visible effect |
| Keyed.UpsertAllIdempotent | App.tsx:211-220 | delivering the same entity batch twice equals delivering it once |
| Keyed.ReplaceAllSpec | App.tsx:249-262 | replace-if-present keeps every position's id; an id finds the last update with it when the list had the id, and nothing when it did not, so updates for unknown ids are dropped |
| Keyed.InsertAllAbsentSpec | App.tsx:232-238 | insert-if-absent keeps the old list as a prefix, adds only delivered elements, makes every delivered id present, keeps ids unique, and changes nothing when every delivered id was known |
| Keyed.InsertAllAbsentHasId | App.tsx:276-282 | after insert-if-absent an id is present exactly when it was present or delivered |
| Keyed.InsertAllAbsentIdempotent | App.tsx:276-282 | inserting the same batch twice equals inserting it once |
| Keyed.InsertAllAbsentFind | App.tsx:232-238 | looked up by id after insert-if-absent, a known id keeps its old element and a new id finds the first delivered element with it, so a later duplicate in the batch never wins |
| Keyed.InsertAllAbsentFresh | App.tsx:276-282 | every appended element carries an id the list lacked and is the first delivered element with that id |
| Keyed.InsertAllAbsentOrder | App.tsx:276-282 | the appended elements follow the order in which the batch first delivers their ids |
| Keyed.RemoveIdsSpec | App.tsx:272-274 | filtering by an id list keeps exactly the elements whose id is not listed and keeps unique ids unique; an id survives exactly when it was present and not listed |
| Keyed.RemoveIdsKeepsOrder | App.tsx:272-274 | filtering by an id list distributes over concatenation, so the kept elements keep their order and multiplicity |
| Keyed.RemoveIdsFind | App.tsx:272-274 | looked up by id after removal, a listed id finds nothing and any other id finds the element it found before |
| Text.TrimNonEmpty | components/WorldCreation.tsx:20 | `trim()` leaves something exactly when the string has a character that is not JavaScript white space, and what it leaves starts and ends with such a character |
| Text.SanitizeNameSpec | App.tsx:331 | the sanitised kingdom name has one character per input character, only `a`-`z`, `0`-`9` and `_`, keeps ASCII letters and digits (lowered) in place and is a fixed point of sanitising |
| Text.NatToDecimalRoundTrip | App.tsx:332 | the decimal rendering of a non-negative year or month is a non-empty digit string that reads back as the number |
| Text.IntToDecimalRoundTrip | App.tsx:332 | the decimal rendering of any year or month, negative ones included, is a decimal integer that reads back as the number and starts with `-` exactly when the number is negative |
| Reconcile.Unresolved | services/geminiService.ts:208 | the open rumors are exactly the stored rumors that are not resolved |
| Reconcile.ResolvedOnes | components/InfoModal.tsx:177 | the resolved rumors are exactly the stored rumors that are resolved |
| Reconcile.ResolvedOnesKeepsOrder | components/InfoModal.tsx:177 | the resolved filter distributes over concatenation, so resolved rumors keep stored order |
| Reconcile.RumorsPartition | components/InfoModal.tsx:136-177 | the open and the resolved rumors together are the stored rumors, counted with multiplicity |
| Reconcile.WorldUpdateEntities | App.tsx:211-221 | entities are upserted by id: each id finds the last delivered entity or the old one, no id is lost, unique ids stay unique, and a repeated delivery changes nothing |
| Reconcile.WorldUpdatePeople | App.tsx:222 | people are appended, so a repeated delivery lists them twice |
| Reconcile.WorldUpdateRumors | App.tsx:224-239 | every stored rumor keeps its place and fields, and `isResolved` becomes true exactly for the listed ids and never becomes false; only delivered rumors are added; every delivered id ends up present; unique ids stay unique |
| Reconcile.WorldUpdateRumorsFirstWins | App.tsx:232-238 | a delivered rumor never overwrites a known one; a new id finds the first delivered rumor with it; new rumors are appended in the order their ids are first delivered |
| Reconcile.ResolutionIsOneWay | App.tsx:225-229 | a resolved rumor stays resolved, in place, under any update |
| Reconcile.EmptyWorldUpdate | App.tsx:207-242 | an update with no parts leaves the world unchanged |
| Reconcile.PoliticalUpdateSpec | App.tsx:244-267 | family and divisions grow by exactly the number of new entries, with ids old-then-new position by position; an update replaces the first entry with its id, the last update winning, and is dropped when no entry has it |
| Reconcile.BuffsUpdateSpec | App.tsx:269-284 | removal before insertion: an id is active afterwards exactly when it was active and not removed, or is delivered; unique ids stay unique; without removals a repeated update changes nothing more |
| Reconcile.BuffsUpdateFind | App.tsx:269-284 | looked up by id, a buff that is not removed keeps its record, a delivered buff never overwrites an active one, and a newly activated id gets its first delivered buff |
| Reconcile.BuffsUpdateOrder | App.tsx:269-284 | the buffs that stay active come first, as the same records in the same order and multiplicity; then the delivered buffs with new ids, in the order their ids are first delivered |
| Reconcile.RemovedAndReAddedSurvives | App.tsx:271-282 | a buff removed and delivered again in one update is active afterwards |
| Ledger.EffectiveMonths | App.tsx:401 | `monthsPassed \|\| 1`: absent and 0 mean one month, any other count is taken as it is, and the result is never 0 |
| Ledger.RolledOver | App.tsx:405-408 | the settled calendar keeps the absolute month count, has a month of at most 12 (at least 1 when the counter was), and advances the year exactly when the counter ran past 12 |
| Ledger.AdvanceCalendar | App.tsx:401-408 | the rollover loop moves the absolute month count by exactly the effective months and ends with a month of at most 12, at least 1 when the sum was positive, agreeing with the closed form |
| Ledger.Floor0 | App.tsx:414 | `Math.max(0, v)` is non-negative and at least `v`; it is `v` when `v` is non-negative and exactly 0 when `v` is negative |
| Ledger.ClampHappiness | App.tsx:418 | happiness is clamped into 0..100 and kept when already in range |
| Ledger.ApplyLedger | App.tsx:401-424 | the new totals: calendar advanced by the effective months, every resource non-negative, happiness in 0..100, tax policy carried over |
| Ledger.LedgerClamps | App.tsx:411-424 | each new resource is the old total plus the delta, except that a total driven below zero is exactly 0 and happiness driven out of 0..100 is exactly the bound it crossed |
| Ledger.OverdrawnGoldIsZero | App.tsx:414 | gold 100 with a delta of -150 becomes exactly 0 |
| Ledger.LedgerExact | App.tsx:411-437 | the resources move by exactly the recorded raw delta precisely when no clamp fires |
| Ledger.LedgerDirection | App.tsx:414-418 | clamping never reverses a change: gold, food and happiness move in the direction of their delta, by at most the delta |
| Ledger.LedgerPreservesValid | App.tsx:401-424 | a turn keeps valid stats valid unless it moves the calendar back past the start of a year |
| Ledger.CalendarForward | App.tsx:401-408 | an absent, zero or positive month count moves the calendar forward by at least one month and keeps valid stats valid |
| Ledger.ZeroDeltaKeepsResources | App.tsx:411-424 | a zero delta on valid stats changes only the calendar |
| Ledger.ScenarioLedger | App.tsx:411-424 | gold 100, food 500, army 10 with gold and food deltas of -20 give 80, 480, 10 one month later |
| Ledger.CalendarExamples | App.tsx:401-408 | 11+3 rolls to month 2 of the next year, 12+12 to month 12 of the next year, 12+25 to month 1 three years on, and a count of 0 advances one month |
| Forecast.TaxHalves | App.tsx:96-103 | the tax multiplier is 0, 0.5, 1 or 1.5, a missing policy counting as Standard |
| Forecast.EpPercent | App.tsx:108 | the power factor is `(economicPower \|\| 10) / 100` floored at 0.1 |
| Forecast.EstimatedForecast | App.tsx:91-120 | the forecast computed on integers equals the real-number formula: food is -2 per soldier, gold is the floored income minus one per soldier |
| Forecast.ForecastTaxHaven | App.tsx:91-120 | under Tax Haven the gold forecast is minus the army and the food forecast is -2 per soldier |
| Forecast.ForecastEpFloor | App.tsx:108-109 | any economic power of at most 10, 0 included, forecasts the same as power 10 |
| Forecast.ForecastMonotone | App.tsx:91-120 | a higher tax policy or a larger population never forecasts less gold, and food depends on the army alone |
| Forecast.ScenarioForecast | App.tsx:91-120 | population 100, power 10, Standard tax and 10 soldiers forecast gold 0 and food -20 |
| Service.NonSystem | services/geminiService.ts:211 | the filtered history holds no system log, only logs of the input, and is never longer than the input |
| Service.NonSystemMembers | services/geminiService.ts:211 | a log is in the filtered history exactly when it is in the input and is not a system log |
| Service.NonSystemKeepsOrder | services/geminiService.ts:211 | the filter keeps log order: filtering two concatenated parts concatenates the filtered parts |
| Service.LastN | services/geminiService.ts:212 | `slice(-n)` is the suffix of length `min(n, length)` |
| Service.HistoryWindow | services/geminiService.ts:210-214 | the window holds at most eight logs, none of them a system log, all from the log list, and is the newest non-system logs in their original order |
| Service.HistoryAfterAppend | services/geminiService.ts:210-214 | a system log never enters or shifts the window; a non-system log enters it as its newest entry |
| Service.ActiveRumors | services/geminiService.ts:208 | the request lists exactly the rumors that are not resolved |
| Service.BuildRequest | services/geminiService.ts:204-240 | the initialization block is present exactly when the action is `KHỞI TẠO` and then quotes background, leader description and leader name; the request carries the action, the stats, the settings, the entities and the buffs unchanged, and the open rumors in stored order; its history is the newest eight non-system logs in order (all of them when there are fewer), so the non-system logs are an older prefix followed by the history |
| Service.ProcessGameTurn | services/geminiService.ts:298-322 | the decoded result is returned as it is; an empty answer or a failed call yields the fallback, and no reply makes the function fail |
| Service.FallbackShape | services/geminiService.ts:314-322 | the fallback has all ten deltas 0, no game over, one month, no choices and no optional update |
| AppState.InitialSessionSpec | App.tsx:28-80 | the opening state shows the menu, waits for nothing, offers the single opening choice, starts on month 1 of year 1 and satisfies the session invariant |
| Turn.ActionText | App.tsx:349 | a custom action sends the typed text; every other action sends its type's label |
| Turn.ReconcileAll | App.tsx:376-379 | running the reconcilers changes the world, the royal house and the buffs and nothing else |
| Turn.GuardIsNoOp | App.tsx:347 | while a turn is pending or after game over, an action changes nothing |
| Turn.RequestCarriesAction | App.tsx:349-374 | the request carries the action text and the pre-turn stats, and its newest history entry is the user's log stamped with the pre-turn calendar |
| Turn.GameOverFreezes | App.tsx:381-398 | a game-over result ends the game and keeps the stats, calendar included, and the last delta; the log gains the user entry, the narrative and the collapse notice, all stamped with the pre-turn calendar; the result's choices still replace the old ones |
| Turn.GameOverReasonDefault | App.tsx:395 | the collapse notice names the reason, or `Không rõ` when it is missing or empty |
| Turn.NormalTurn | App.tsx:400-462 | an ordinary turn applies the ledger, records the raw delta, offers the result's choices and appends the user entry (pre-turn calendar), the narrative and, only when other kingdoms acted, a world-event entry, both stamped with the new calendar |
| Turn.FailedCallCostsAMonth | App.tsx:366-425 | a failed or empty reply advances the calendar by exactly one month, leaves every resource and the world, house and buffs unchanged, and leaves no choice |
| Turn.TurnPreservesInvariant | App.tsx:346-466 | a turn whose month count is not negative keeps stats valid and entity, rumor and buff ids unique, and only appends to the log |
| Turn.InvestDescriptionDropped | App.tsx:349 | an investment action sends `Đầu tư ngân sách` whatever description comes with it, so two descriptions lead to the same session |
| Turn.TaxChange | App.tsx:469-471 | a tax change sets the policy and changes nothing else |
| Turn.TaxPolicySurvivesTurn | App.tsx:424 | the policy set by a tax change is still in force after the next turn, whatever the service returns |
| Lifecycle.StartNewGameSpec | App.tsx:128-181 | a new game does not depend on the previous session; it shows the game, is not waiting or over, has no recorded delta, uses the new settings, logs the single `init` entry on month 1, takes the proposed stats or the starter snapshot and the result's choices |
| Lifecycle.StartIgnoresTurnFields | App.tsx:152-170 | the first result's delta, game-over flag, reason and month count have no effect |
| Lifecycle.InitRequestSpec | App.tsx:142-150 | the first request carries the initialization block, an empty history and no rumors |
| Lifecycle.StarterSnapshot | App.tsx:152-165 | without proposed stats the game starts at gold 100, food 500, population 100, army 10, happiness 50, power 10, Standard tax, month 1 of year 1, and these stats are valid |
| Lifecycle.FailedInitCall | App.tsx:142-181 | a failed or empty first reply starts the game on the starter snapshot with the fallback narrative, an empty world and no choices |
| Lifecycle.CatchBranch | App.tsx:182-201 | the catch branch starts at gold 50, food 100, population 50, no army, happiness 50, with one system entry stamped by year only and two starter choices |
| Lifecycle.LoadValidation | App.tsx:302-316 | a file is taken exactly when it parses and has stats, logs and settings; a refused file changes nothing; an accepted one shows the game with its stats and logs |
| Lifecycle.LoadDefaults | App.tsx:306-316 | missing optional parts load as a running game with no recorded delta and an empty world, house, buff list and choice list |
| Lifecycle.SaveLoadRoundTrip | App.tsx:306-327 | loading a saved bundle restores every saved part of the session and shows the game |
| Lifecycle.SaveFileNameSpec | App.tsx:331-332 | the file name is `kingdom_`, the sanitised name (one safe character per name character), `_Y` and the year, `_M` and the month, `.json`, and the year and month read back as the calendar of the save, a month turned back to 0 or below included |
| Lifecycle.DefaultKingdomFileName | App.tsx:331 | the default kingdom name `Vương Quốc` sanitises to `v__ng_qu_c` |
| Lifecycle.ExitToMenu | App.tsx:342-344 | leaving shows the menu and keeps every other part of the session |
| Lifecycle.ExitKeepsGame | App.tsx:342-344 | saving after leaving writes the same bundle and file name as saving before |
| PoliticsView.WithRelation | components/PoliticsModal.tsx:20-24 | a relation group holds exactly the members tagged with that relation |
| PoliticsView.FirstSelf | components/PoliticsModal.tsx:22 | the self slot is filled exactly when some member is tagged `Self`, and then holds such a member |
| PoliticsView.OthersMembers | components/PoliticsModal.tsx:25-27 | the others are exactly the members tagged `Relative`, `None` or nothing |
| PoliticsView.SelfIsFirst | components/PoliticsModal.tsx:22 | the self slot holds the first member tagged `Self` |
| PoliticsView.WithRelationKeepsOrder | components/PoliticsModal.tsx:20-24 | each relation group keeps family order: grouping a concatenation concatenates the groups |
| PoliticsView.OthersKeepOrder | components/PoliticsModal.tsx:25-27 | the others keep family order in the same sense |
| PoliticsView.GroupsPartition | components/PoliticsModal.tsx:17-28 | counted with multiplicity, the four relation groups, the others and the `Self` members make up the family, so every member but a second `Self` lands in exactly one list |
| PoliticsView.SecondSelfIsHidden | components/PoliticsModal.tsx:22-27 | a `Self` member other than the first appears in no group |
| PoliticsView.GroupsIgnoreStatus | components/PoliticsModal.tsx:17-28 | changing a member's status changes no group's size and does not empty or fill the self slot |
| PoliticsView.CardStyle | components/PoliticsModal.tsx:38-44 | a dead member's card is greyed whether or not it is the ruler's; otherwise the ruler's card is highlighted |
| MapView.ResolveLiege | components/MapModal.tsx:28-46 | liege `P` resolves to the player's colour and kingdom name, a found liege to its colour and name (`Unknown` when empty), a missing one to `#333` and `Unknown` |
| MapView.ReservedIdsShadowEntities | components/MapModal.tsx:18-21 | `~` is always sea and `P` always the player, in colour and name, whatever the entities hold |
| MapView.UnknownIdIsUncharted | components/MapModal.tsx:24-25 | an id no entity carries is drawn in the sea colour and named `Vùng đất bí ẩn` |
| MapView.VassalIffStriped | components/MapModal.tsx:28-49 | a cell is striped exactly when its entity has a non-empty liege; otherwise it shows the entity's own colour and a name without a liege |
| MapView.SelfLiegeResolves | components/MapModal.tsx:29 | in any world, an entity drawn for its id that is its own liege resolves in one lookup to itself, striped in its own colour twice |
| MapView.MutualLiegesResolve | components/MapModal.tsx:29 | in any world, two entities drawn for their ids that are each other's liege resolve in one lookup each, to each other, without following the cycle |
| MapView.LegendMatchesMap | components/MapModal.tsx:145-158 | the legend draws an entity with the same swatch and liege as its map cell |
| InfoView.RumorVisualsDistinct | components/InfoModal.tsx:18-26 | Threat, Opportunity, Mystery and Talent look different from each other and from the default; only Gossip gets the default |
| InfoView.RumorTitle | components/InfoModal.tsx:158 | an open rumor is headed by its title, or by `Tin đồn vô danh` when it has none |
| InfoView.ResolvedLine | components/InfoModal.tsx:180 | a resolved rumor is shown by its title, or else by the first 30 characters of its content |
| InfoView.SomeResolvedIff | components/InfoModal.tsx:173 | some rumor is resolved exactly when the resolved filter is non-empty |
| InfoView.ActiveListKeepsOrder | components/InfoModal.tsx:136-139 | the open list keeps stored order |
| InfoView.ResolvedHistorySpec | components/InfoModal.tsx:173-180 | the resolved section is shown exactly when some rumor is resolved, and then holds the last three resolved rumors, or all of them when there are fewer, in stored order |
| InfoView.StatusLabel | components/InfoModal.tsx:122 | the alive label is shown exactly for `Alive`; `Dead` and `Missing` both get the dead label |
| EconomyView.SliderIndex | components/EconomyModal.tsx:80 | the slider position is a stop 0..3 whose policy is the current one, a missing policy reading as Standard |
| EconomyView.SliderRoundTrip | components/EconomyModal.tsx:16 | stop to policy to stop is the identity, and policy to stop to policy gives the policy |
| EconomyView.MoveSliderSpec | components/EconomyModal.tsx:81 | moving the slider changes only the tax policy, and the slider then shows the chosen stop |
| EconomyView.TaxDescriptionsDistinct | components/EconomyModal.tsx:18-26 | each policy has its own description, and a missing policy is described as Standard |
| EconomyView.InvestGating | components/EconomyModal.tsx:103-124 | Infrastructure and Defense are enabled exactly from 500 gold, Welfare from 300; when Welfare is disabled, every button is |
| EconomyView.InvestButtonsDescribed | components/EconomyModal.tsx:28-40 | each button's name has a non-empty description of its own; an unknown name gets the empty description |
| EconomyView.InvestKindIsLost | components/EconomyModal.tsx:28-43 | every button, and any unknown name, closes the panel and leads to the same session as an investment without description |
| Forms.HandleChange | components/WorldCreation.tsx:25-27 | a change sets exactly the named field and leaves the other four as they were |
| Forms.FilledIffVisible | components/WorldCreation.tsx:20 | every trimmed field is non-empty exactly when every field has a character that is not white space |
| Forms.Submit | components/WorldCreation.tsx:18-23 | the form is submitted exactly when every field has a visible character, and the settings are the fields as typed, untrimmed |
| Forms.BlankFieldBlocksSubmit | components/WorldCreation.tsx:10-22 | one blank or all-space field blocks the submit, and so does the initial empty form |
| Forms.SubmitStartsGame | components/WorldCreation.tsx:21 | a submitted form starts the game with the untrimmed settings, which the opening request also quotes |
| Forms.ChangeThenSubmit | components/WorldCreation.tsx:18-27 | after editing one field of a submittable form, it stays submittable exactly when the new value has a visible character |
| Forms.CustomSubmit | components/ActionPanel.tsx:15-22 | a custom action is sent exactly when the input has a visible character, as typed; the panel is then cleared and closed, and left as it was otherwise |
| Forms.SendEnabledIffDispatch | components/ActionPanel.tsx:94 | the send button is enabled exactly when the panel is enabled and a submit would send |
| Forms.CustomTextIsSentAsTyped | components/ActionPanel.tsx:15-22 | the service and the user log receive the typed text with its white space; blank text leaves session and panel alone |
| Forms.SuggestionSendsAction | components/ActionPanel.tsx:44 | a suggestion sends its action text, never its label, and two suggestions with the same action have the same effect |
| Forms.StyleClass | components/ActionPanel.tsx:24-35 | Aggressive, Diplomatic and Economic get their colours; Neutral and a missing style get the default |
| Forms.StyleClassDistinct | components/ActionPanel.tsx:24-35 | two styles are drawn alike exactly when they are equal or both fall to the default |

## Left out

- The generative-model client, the prompt text, the response schema and the temperature
  (`services/geminiService.ts`). They are a foreign call. The reply is the `Oracle`
  parameter, and a decoded reply is assumed to be a well-typed `TurnResult` with every
  field the schema requires.
- JSON encoding and decoding, `FileReader`, and the Blob and anchor download of
  `saveGame`. These are I/O. Load works on an already decoded `SaveDoc` whose fields
  may each be absent, and `None` stands for text that does not parse.
- `Date.now()` log ids and the formatted Vietnamese timestamps. Ids are the tokens
  `startedAt` and `resolvedAt`, and timestamps are (year, month) pairs or a year alone.
- Forecast: floating-point rounding is not modelled. The forecast uses exact rationals
  and is not claimed to be bit-exact with JavaScript doubles.
- Missing numeric fields:
  - Ledger.ApplyLedger: treats the resource fields as always present. The source's
    `|| 0` for absent wood, stone, manpower, supplies and power is therefore not
    modelled, nor is `NaN` from an absent gold, food, population, army or happiness
    delta. The response schema requires all ten.
- React state:
  - Hooks, the stale closure across the `await` (a tax change made while a turn is
    pending is lost when the turn ends) and JSX are not modelled. Each handler is one
    sequential step.
  - `handleWorldUpdate` writes new entities into the array it shares with the previous
    state, and on a new game that array belongs to the module constant
    `INITIAL_WORLD_INFO`. The model keeps every state immutable, so that sharing is not
    modelled.
- Text:
  - Text.SanitizeNameSpec: works on Dafny characters, not UTF-16 code units. A name with
    characters outside the Basic Multilingual Plane gets one `_` per character here but
    two in the source.
- InfoView.ResolvedLine: the 30-character cut counts Dafny characters, not UTF-16 code
  units, for the same reason as `SanitizeNameSpec`.
- Reconcile.PoliticalUpdateSpec: states the effect of updates through the first entry
  with each id, as the source's `findIndex` does. It does not describe later entries
  that share an id, because additions are not deduplicated.
- Lifecycle.StartNewGameSpec: a new game, as the model states it, does not depend on the
  previous session and starts from an empty world before the first update. In the source,
  `handleWorldUpdate` pushes new entities into the array it shares with the previous state
  (App.tsx:209-217). After `startNewGame` that array is the constant
  `INITIAL_WORLD_INFO.entities`. So a new game in a page where an earlier game received
  entities starts with those entities. The model does not express that sharing.
- Lifecycle.FailedInitCall: the "empty world" after a failed first reply is the model's.
  The source shows the entities an earlier game in the page pushed into
  `INITIAL_WORLD_INFO.entities`, for the reason given under StartNewGameSpec.
- Lifecycle.LoadDefaults: a file without `worldInfo` loads the shared `INITIAL_WORLD_INFO`
  (App.tsx:311). In the source that can already hold entities pushed by an earlier game
  in the page. The model loads an empty world.
- Lifecycle.StartNewGameSpec: a partial `initialStats` is not modelled. The response
  schema requires none of its fields, and the source adopts any record as it is, `{}` included
  (App.tsx:152-153). A missing `year`, `month` or resource then gives `NaN` in the
  calendar (App.tsx:402) and in the forecast. Here a snapshot is a full `KingdomStats` with
  integer fields, and only `taxRate` may be absent.
- Lifecycle.LoadValidation: the nested records of a loaded file are assumed complete. The
  load checks only that stats, logs and settings are present (App.tsx:302-316). A saved
  `worldInfo` without `entities` or `rumors`, from an older or hand-edited file, makes the
  next turn's `processGameTurn` reject while it builds the request
  (services/geminiService.ts:206-208, before the `try` at line 298). `handleAction` has no
  `try`/`finally` (App.tsx:346-466), so `isProcessing` then stays true and every later
  action is refused until a new game resets it (App.tsx:203). The model's `WorldInfo`
  always holds both lists, so that stuck state is not modelled.
- `handleCreateWorld` (App.tsx:124-126) and the form's back button (App.tsx:519) only
  switch the screen. They are not modelled separately from `View`.
- `lastChange` holds a partial record in the source, the empty record `{}` after a new
  game. Here it is an `Option` of a full delta.
- Purely presentational parts:
  - `components/ResourceCard.tsx`, `components/GameLog.tsx` and
    `components/StartMenu.tsx`;
  - the icons, CSS and modal flags;
  - the map grid itself, which the client never stores.

=== FILE: app_state.dfy ===
/**
 The state the game screen holds (`App.tsx`): the screen shown, the
 kingdom's stats, the log, the world, the royal house, the active buffs,
 the offered choices, the two flags and the last turn's raw delta.
 */
module AppState {
  import opened Types
  import Keyed
  import Ledger

  datatype View = Menu | Creation | InGame

  /** `lastChange` is `None` for the empty record `{}` the source starts
      with and resets to. */
  datatype Session = Session(
    view: View,
    stats: KingdomStats,
    logs: seq<GameLog>,
    worldInfo: WorldInfo,
    heritage: KingdomHeritage,
    activeBuffs: seq<KingdomBuff>,
    currentChoices: seq<SuggestedAction>,
    isProcessing: bool,
    gameOver: bool,
    lastChange: Option<StatsDelta>,
    settings: GameSettings)

  const ZERO_STATS: KingdomStats := KingdomStats(
    year := 1, month := 1, gold := 0, food := 0, population := 0, army := 0,
    happiness := 50, wood := 0, stone := 0, manpower := 0, supplies := 0,
    economicPower := 0, taxRate := Some(Standard))

  const DEFAULT_SETTINGS: GameSettings := GameSettings(
    worldTheme := "Trung cổ",
    kingdomName := "Vương Quốc",
    background := "Vùng đất mới",
    leaderName := "Đức Vua",
    leaderDescription := "")

  const INITIAL_WORLD_INFO: WorldInfo := WorldInfo([], [], [])

  const INITIAL_HERITAGE: KingdomHeritage := KingdomHeritage([], [])

  const INITIAL_CHOICES: seq<SuggestedAction> := [
    SuggestedAction("Bắt đầu triều đại", "Bước lên ngai vàng và tuyên bố triều đại bắt đầu", Some(ActionStyle.Neutral))
  ]

  /** The state when the application opens. */
  const INITIAL_SESSION: Session := Session(
    view := Menu,
    stats := ZERO_STATS,
    logs := [],
    worldInfo := INITIAL_WORLD_INFO,
    heritage := INITIAL_HERITAGE,
    activeBuffs := [],
    currentChoices := INITIAL_CHOICES,
    isProcessing := false,
    gameOver := false,
    lastChange := None,
    settings := DEFAULT_SETTINGS)

  /** What every turn keeps: valid stats, and no id shared by two
      entities, two rumors or two active buffs. */
  predicate SessionInvariant(s: Session) {
    && Ledger.ValidStats(s.stats)
    && Keyed.UniqueIds(s.worldInfo.entities, EntityKey)
    && Keyed.UniqueIds(s.worldInfo.rumors, RumorKey)
    && Keyed.UniqueIds(s.activeBuffs, BuffKey)
  }

  /** The opening state already satisfies the invariant, shows the menu,
      offers the single opening choice and waits for nothing. */
  lemma InitialSessionSpec()
    ensures SessionInvariant(INITIAL_SESSION)
    ensures INITIAL_SESSION.view == Menu && !INITIAL_SESSION.isProcessing && !INITIAL_SESSION.gameOver
    ensures |INITIAL_SESSION.currentChoices| == 1
    ensures INITIAL_SESSION.stats.year == 1 && INITIAL_SESSION.stats.month == 1
  {
  }
}

=== FILE: economy_view.dfy ===
/**
 The finance panel (`components/EconomyModal.tsx`): the tax slider, the
 policy description, and the three investment buttons with their gold
 thresholds.
 */
module EconomyView {
  import opened Types
  import opened AppState
  import Turn
  import Service

  /** The slider's stops, left to right. */
  const TAX_RATES: seq<TaxRate> := [TaxHaven, Low, Standard, Extortion]

  /** `taxRates.indexOf(stats.taxRate || 'Standard')`. */
  function SliderIndex(rate: Option<TaxRate>): (i: int)
    ensures 0 <= i < |TAX_RATES|
    ensures TAX_RATES[i] == rate.GetOr(Standard)
  {
    match rate.GetOr(Standard)
    case TaxHaven => 0
    case Low => 1
    case Standard => 2
    case Extortion => 3
  }

  /** `taxRates[parseInt(value)]` for a slider value 0..3. */
  function RateAt(i: int): TaxRate
    requires 0 <= i < |TAX_RATES|
  {
    TAX_RATES[i]
  }

  /** Stop and policy are in one-to-one correspondence: reading the stop of
      the policy set from a stop gives that stop back, and the policy at
      the stop shown for a policy is the policy (missing reads as
      Standard). */
  lemma SliderRoundTrip(i: int, rate: Option<TaxRate>)
    requires 0 <= i < |TAX_RATES|
    ensures SliderIndex(Some(RateAt(i))) == i
    ensures RateAt(SliderIndex(rate)) == rate.GetOr(Standard)
  {
  }

  /** Moving the slider to stop `i`. */
  function MoveSlider(s: Session, i: int): Session
    requires 0 <= i < |TAX_RATES|
  {
    Turn.TaxChange(s, RateAt(i))
  }

  /** Moving the slider changes the tax policy and nothing else, and the
      slider then shows the stop it was moved to. */
  lemma MoveSliderSpec(s: Session, i: int)
    requires 0 <= i < |TAX_RATES|
    ensures MoveSlider(s, i).(stats := s.stats) == s
    ensures MoveSlider(s, i).stats == s.stats.(taxRate := Some(RateAt(i)))
    ensures SliderIndex(MoveSlider(s, i).stats.taxRate) == i
  {
  }

  /** `getTaxDescription` of the policy shown (missing reads as Standard). */
  function TaxDescription(rate: Option<TaxRate>): string {
    PolicyText(rate.GetOr(Standard))
  }

  const TAX_HAVEN_TEXT: string := "Miễn thuế: Không thu Vàng. Dân số tăng nhanh. Hạnh phúc tăng mạnh."
  const LOW_TEXT: string := "Thuế thấp: Thu nhập trung bình. Tăng nhẹ Kinh tế (EP) và Hạnh phúc."
  const STANDARD_TEXT: string := "Tiêu chuẩn: Thu nhập ổn định. Hạnh phúc giảm nhẹ theo thời gian."
  const EXTORTION_TEXT: string := "Bóc lột: Thu nhập cực cao. Dân bỏ đi. Nguy cơ bạo loạn cao."

  /** The text shown for a set policy. */
  function PolicyText(rate: TaxRate): string {
    match rate
    case TaxHaven => TAX_HAVEN_TEXT
    case Low => LOW_TEXT
    case Standard => STANDARD_TEXT
    case Extortion => EXTORTION_TEXT
  }

  /** Helper for `TaxDescriptionsDistinct`: the four texts have different
      lengths, which tells them apart. */
  lemma PolicyTextLengths()
    ensures |TAX_HAVEN_TEXT| == 66 && |LOW_TEXT| == 67
    ensures |STANDARD_TEXT| == 64 && |EXTORTION_TEXT| == 59
  {
  }

  /** Each policy has its own description, and a missing policy is
      described as Standard. */
  lemma TaxDescriptionsDistinct(a: TaxRate, b: TaxRate)
    ensures TaxDescription(Some(a)) == TaxDescription(Some(b)) <==> a == b
    ensures TaxDescription(None) == TaxDescription(Some(Standard))
  {
    PolicyTextLengths();
  }

  datatype InvestKind = Infrastructure | Welfare | Defense {
    /** The name the button passes to `handleInvest`. */
    function Name(): string {
      match this
      case Infrastructure => "Infrastructure"
      case Welfare => "Welfare"
      case Defense => "Defense"
    }
  }

  /** The gold a button needs before it is enabled. */
  function InvestThreshold(kind: InvestKind): int {
    match kind
    case Infrastructure => 500
    case Welfare => 300
    case Defense => 500
  }

  /** `disabled={stats.gold < threshold}`. */
  predicate InvestEnabled(kind: InvestKind, gold: int) {
    gold >= InvestThreshold(kind)
  }

  /** Infrastructure and Defense are enabled exactly from 500 gold on,
      Welfare from 300 on; so with Welfare disabled no button is enabled. */
  lemma InvestGating(gold: int)
    ensures InvestEnabled(Infrastructure, gold) <==> gold >= 500
    ensures InvestEnabled(Defense, gold) <==> gold >= 500
    ensures InvestEnabled(Welfare, gold) <==> gold >= 300
    ensures !InvestEnabled(Welfare, gold) ==> forall k: InvestKind :: !InvestEnabled(k, gold)
  {
  }

  const INFRASTRUCTURE_TEXT: string := "Đầu tư Ngân sách vào Hạ tầng (Xây đường, chợ) để tăng Sức mạnh Kinh tế (EP)."
  const WELFARE_TEXT: string := "Chi Ngân sách cho Phúc lợi xã hội (Cứu trợ, Lễ hội) để tăng Hạnh phúc."
  const DEFENSE_TEXT: string := "Đầu tư Quốc phòng (Mua sắm vũ khí, gia cố thành) để tăng Sức mạnh Quân đội và Vật tư."

  /** The description `handleInvest` builds from a button name; an unknown
      name gives the empty string. */
  function InvestDescription(name: string): string {
    if name == "Infrastructure" then INFRASTRUCTURE_TEXT
    else if name == "Welfare" then WELFARE_TEXT
    else if name == "Defense" then DEFENSE_TEXT
    else ""
  }

  /** Each button's name has a description of its own; an unknown name
      has none. */
  lemma InvestButtonsDescribed(k: InvestKind, other: InvestKind)
    ensures InvestDescription(k.Name()) != ""
    ensures InvestDescription(k.Name()) == InvestDescription(other.Name()) <==> k == other
    ensures InvestDescription("") == ""
  {
    assert |INFRASTRUCTURE_TEXT| == 76 && |WELFARE_TEXT| == 70 && |DEFENSE_TEXT| == 85;
  }

  /** What one press of an investment button does: the session after the
      dispatched action, and whether the panel is still open. */
  datatype InvestOutcome = InvestOutcome(session: Session, panelOpen: bool)

  /** `handleInvest`: dispatch an `INVEST` action with the description,
      then close the panel. */
  function HandleInvest(
    s: Session, name: string, service: Service.Oracle, startedAt: string, resolvedAt: string): InvestOutcome
  {
    InvestOutcome(Turn.HandleAction(s, Invest, Some(InvestDescription(name)), service, startedAt, resolvedAt), false)
  }

  /** Every button, and any unknown name, closes the panel and dispatches
      the same action: the one the investment label names, whatever the
      description said. */
  lemma InvestKindIsLost(
    s: Session, name1: string, name2: string, service: Service.Oracle, startedAt: string, resolvedAt: string)
    ensures HandleInvest(s, name1, service, startedAt, resolvedAt) == HandleInvest(s, name2, service, startedAt, resolvedAt)
    ensures !HandleInvest(s, name1, service, startedAt, resolvedAt).panelOpen
    ensures HandleInvest(s, name1, service, startedAt, resolvedAt).session ==
      Turn.HandleAction(s, Invest, None, service, startedAt, resolvedAt)
  {
    Turn.InvestDescriptionDropped(s, Some(InvestDescription(name1)), Some(InvestDescription(name2)), service, startedAt, resolvedAt);
    Turn.InvestDescriptionDropped(s, Some(InvestDescription(name1)), None, service, startedAt, resolvedAt);
  }
}

=== FILE: forecast.dfy ===
/**
 `getEstimatedForecast` (`App.tsx`): the per-turn food and gold estimate the
 header shows. It reads the stats and changes nothing.
 */
module Forecast {
  import opened Types

  datatype Forecast = Forecast(food: int, gold: int)

  /** The tax multiplier of the source: 0, 0.5, 1 or 1.5, with a missing
      policy counted as Standard. */
  function TaxMod(rate: Option<TaxRate>): real {
    match rate
    case Some(TaxHaven) => 0.0
    case Some(Low) => 0.5
    case Some(Standard) => 1.0
    case Some(Extortion) => 1.5
    case None => 1.0
  }

  /** `Math.max(0.1, (economicPower || 10) / 100)`: a zero power counts as
      10, and anything below 10 is lifted to the 0.1 floor. */
  function EpFactor(economicPower: int): real {
    var ep := if economicPower == 0 then 10 else economicPower;
    var f := ep as real / 100.0;
    if f < 0.1 then 0.1 else f
  }

  /** The income of the source computed in exact real arithmetic:
      `floor(population * 0.1 * taxMod * epFactor * 10)`. */
  function RealIncome(stats: KingdomStats): int {
    (stats.population as real * 0.1 * TaxMod(stats.taxRate) * EpFactor(stats.economicPower) * 10.0).Floor
  }

  /** The tax multiplier in halves: 0, 1, 2 or 3. */
  function TaxHalves(rate: Option<TaxRate>): (h: int)
    ensures 0 <= h <= 3
    ensures h as real == 2.0 * TaxMod(rate)
  {
    match rate
    case Some(TaxHaven) => 0
    case Some(Low) => 1
    case Some(Standard) => 2
    case Some(Extortion) => 3
    case None => 2
  }

  /** The economic power the factor uses, in hundredths: at least 10. */
  function EpPercent(economicPower: int): (p: int)
    ensures p >= 10
    ensures p as real == 100.0 * EpFactor(economicPower)
  {
    var ep := if economicPower == 0 then 10 else economicPower;
    if ep < 10 then 10 else ep
  }

  lemma FloorOfQuotient(n: int, d: int)
    requires d > 0
    ensures (n as real / d as real).Floor == n / d
  {
    var q, r := n / d, n % d;
    assert n == q * d + r && 0 <= r < d;
    assert n as real == q as real * d as real + r as real;
    var frac := r as real / d as real;
    assert 0.0 <= frac < 1.0 by {
      assert frac * d as real == r as real;
    }
    assert n as real / d as real == q as real + frac;
  }

  /** The forecast, computed on integers: income is
      `population * halves * percent / 200` rounded down, the army costs one
      gold and two food per soldier. */
  function EstimatedForecast(stats: KingdomStats): (f: Forecast)
    ensures f.food == -2 * stats.army
    ensures f.gold == RealIncome(stats) - stats.army
  {
    var h := TaxHalves(stats.taxRate);
    var p := EpPercent(stats.economicPower);
    var n := stats.population * h * p;
    assert stats.population as real * 0.1 * TaxMod(stats.taxRate) * EpFactor(stats.economicPower) * 10.0
        == n as real / 200.0 by {
      assert TaxMod(stats.taxRate) == h as real / 2.0;
      assert EpFactor(stats.economicPower) == p as real / 100.0;
    }
    FloorOfQuotient(n, 200);
    Forecast(-2 * stats.army, n / 200 - stats.army)
  }

  /** Under Tax Haven there is no income: the gold forecast is the army's
      upkeep alone. */
  lemma ForecastTaxHaven(stats: KingdomStats)
    requires stats.taxRate == Some(TaxHaven)
    ensures EstimatedForecast(stats).gold == -stats.army
    ensures EstimatedForecast(stats).food == -2 * stats.army
  {
  }

  /** Any economic power of at most 10, 0 included, forecasts as power 10. */
  lemma ForecastEpFloor(stats: KingdomStats)
    requires stats.economicPower <= 10
    ensures EstimatedForecast(stats) == EstimatedForecast(stats.(economicPower := 10))
  {
  }

  /** With a non-negative population, a higher tax policy never forecasts
      less gold, nor does a larger population under the same policy. */
  lemma ForecastMonotone(stats: KingdomStats, more: KingdomStats)
    requires 0 <= stats.population <= more.population
    requires stats.army == more.army && stats.economicPower == more.economicPower
    requires TaxHalves(stats.taxRate) <= TaxHalves(more.taxRate)
    ensures EstimatedForecast(stats).gold <= EstimatedForecast(more).gold
    ensures EstimatedForecast(stats).food == EstimatedForecast(more).food
  {
    var a := stats.population * TaxHalves(stats.taxRate);
    var b := more.population * TaxHalves(more.taxRate);
    assert a <= b by {
      assert stats.population * TaxHalves(stats.taxRate) <= more.population * TaxHalves(stats.taxRate);
      assert more.population * TaxHalves(stats.taxRate) <= more.population * TaxHalves(more.taxRate);
    }
    var p := EpPercent(stats.economicPower);
    assert a * p <= b * p;
    assert stats.population * TaxHalves(stats.taxRate) * p == a * p;
    assert more.population * TaxHalves(more.taxRate) * p == b * p;
  }

  /** Population 100, power 10, Standard tax and 10 soldiers: income 10,
      upkeep 10, so gold 0; food -20. */
  lemma ScenarioForecast(stats: KingdomStats)
    requires stats.population == 100 && stats.economicPower == 10
    requires stats.taxRate == Some(Standard) && stats.army == 10
    ensures EstimatedForecast(stats) == Forecast(-20, 0)
  {
  }
}

=== FILE: forms.dfy ===
/**
 The two input forms of the game: the world-creation form
 (`components/WorldCreation.tsx`), which starts a new game only when every
 field holds something other than white space, and the action panel
 (`components/ActionPanel.tsx`), whose suggestion buttons and free-text
 form both dispatch a custom action.
 */
module Forms {
  import opened Types
  import Text
  import opened AppState
  import Turn
  import Service
  import Lifecycle

  // ------------------------------------------------------ world creation

  /** The five inputs of the form, one per field of `GameSettings`. */
  datatype Field = WorldTheme | KingdomName | Background | LeaderName | LeaderDescription

  /** The form as first shown: every field empty. */
  const EMPTY_FORM: GameSettings := GameSettings("", "", "", "", "")

  function Get(f: GameSettings, field: Field): string {
    match field
    case WorldTheme => f.worldTheme
    case KingdomName => f.kingdomName
    case Background => f.background
    case LeaderName => f.leaderName
    case LeaderDescription => f.leaderDescription
  }

  /** `handleChange(field, value)`: one keystroke in one input. */
  function HandleChange(f: GameSettings, field: Field, value: string): (r: GameSettings)
    ensures Get(r, field) == value
    ensures forall other: Field :: other != field ==> Get(r, other) == Get(f, other)
  {
    match field
    case WorldTheme => f.(worldTheme := value)
    case KingdomName => f.(kingdomName := value)
    case Background => f.(background := value)
    case LeaderName => f.(leaderName := value)
    case LeaderDescription => f.(leaderDescription := value)
  }

  /** The submit guard: every field's trimmed value is non-empty. */
  predicate Filled(f: GameSettings) {
    forall field: Field :: |Text.Trim(Get(f, field))| > 0
  }

  /** The guard, restated: every field has a character that is not white
      space. */
  lemma FilledIffVisible(f: GameSettings)
    ensures Filled(f) <==> forall field: Field :: Text.HasVisibleChar(Get(f, field))
  {
    forall field: Field ensures |Text.Trim(Get(f, field))| > 0 <==> Text.HasVisibleChar(Get(f, field)) {
      Text.TrimNonEmpty(Get(f, field));
    }
  }

  /** `handleSubmit`: the settings handed to `onStart`, or nothing. The
      values are handed over as typed, not trimmed. */
  function Submit(f: GameSettings): (r: Option<GameSettings>)
    ensures r.Some? <==> forall field: Field :: Text.HasVisibleChar(Get(f, field))
    ensures r.Some? ==> r.value == f
  {
    FilledIffVisible(f);
    if Filled(f) then Some(f) else None
  }

  /** A form left empty, or with any one field blank or all white space, is
      not submitted, whatever the other fields hold. */
  lemma BlankFieldBlocksSubmit(f: GameSettings, field: Field)
    requires forall i :: 0 <= i < |Get(f, field)| ==> Text.IsJsSpace(Get(f, field)[i])
    ensures Submit(f).None?
    ensures Submit(EMPTY_FORM).None?
  {
    assert !Text.HasVisibleChar(Get(f, field));
    assert !Text.HasVisibleChar(Get(EMPTY_FORM, WorldTheme));
  }

  /** A submitted form starts the game with the settings exactly as typed,
      padding included: they are what the session keeps, and the opening
      request carries the untrimmed background, leader description and
      leader name. */
  lemma SubmitStartsGame(s: Session, f: GameSettings, service: Service.Oracle)
    requires Submit(f).Some?
    ensures var r := Lifecycle.StartNewGame(s, Submit(f).value, service);
      && r.settings == f
      && r.view == InGame
      && Lifecycle.InitRequest(Submit(f).value).initBlock ==
           Some(Service.InitBlock(f.background, f.leaderDescription, f.leaderName))
  {
    Lifecycle.StartNewGameSpec(s, s, f, service);
    Lifecycle.InitRequestSpec(f);
  }

  /** Typing into one field and submitting: the change is the only thing
      that can turn a submittable form into one that is not, and it does
      so exactly when the new value is blank. */
  lemma ChangeThenSubmit(f: GameSettings, field: Field, value: string)
    requires Submit(f).Some?
    ensures Submit(HandleChange(f, field, value)).Some? <==> Text.HasVisibleChar(value)
  {
    var g := HandleChange(f, field, value);
    if Text.HasVisibleChar(value) {
      forall other: Field ensures Text.HasVisibleChar(Get(g, other)) {
        if other != field {
          assert Get(g, other) == Get(f, other);
        }
      }
    }
  }

  // -------------------------------------------------------- action panel

  /** The panel's own state: the free-text input and whether its form is
      open. */
  datatype Panel = Panel(customInput: string, showCustom: bool)

  const CLOSED_PANEL: Panel := Panel("", false)

  /** `handleCustomSubmit`: the panel afterwards, and the text passed to
      `onAction(CUSTOM, ...)` if any. */
  datatype PanelStep = PanelStep(panel: Panel, dispatched: Option<string>)

  function CustomSubmit(p: Panel): (r: PanelStep)
    ensures r.dispatched.Some? <==> Text.HasVisibleChar(p.customInput)
    ensures r.dispatched.Some? ==> r.dispatched.value == p.customInput && r.panel == CLOSED_PANEL
    ensures r.dispatched.None? ==> r.panel == p
  {
    Text.TrimNonEmpty(p.customInput);
    if |Text.Trim(p.customInput)| > 0 then PanelStep(CLOSED_PANEL, Some(p.customInput))
    else PanelStep(p, None)
  }

  /** The send button's `disabled` attribute, negated. */
  predicate SendEnabled(p: Panel, disabled: bool) {
    !disabled && |Text.Trim(p.customInput)| > 0
  }

  /** The send button is enabled exactly when the panel is not disabled
      and a submit would dispatch. */
  lemma SendEnabledIffDispatch(p: Panel, disabled: bool)
    ensures SendEnabled(p, disabled) <==> !disabled && CustomSubmit(p).dispatched.Some?
  {
    Text.TrimNonEmpty(p.customInput);
  }

  /** Submitting the free-text form in a session: the session after the
      dispatched action (unchanged when nothing is dispatched), and the
      panel. */
  function SubmitCustom(
    s: Session, p: Panel, service: Service.Oracle, startedAt: string, resolvedAt: string): (Session, Panel)
  {
    var step := CustomSubmit(p);
    match step.dispatched
    case None => (s, step.panel)
    case Some(text) => (Turn.HandleAction(s, Custom, Some(text), service, startedAt, resolvedAt), step.panel)
  }

  /** What the service sees and what the log records is the text as typed,
      surrounding white space included; blank text leaves the session and
      the panel alone. */
  lemma CustomTextIsSentAsTyped(
    s: Session, p: Panel, service: Service.Oracle, startedAt: string, resolvedAt: string)
    ensures !Text.HasVisibleChar(p.customInput) ==> SubmitCustom(s, p, service, startedAt, resolvedAt) == (s, p)
    ensures Text.HasVisibleChar(p.customInput) ==>
      && SubmitCustom(s, p, service, startedAt, resolvedAt).1 == CLOSED_PANEL
      && Turn.RequestFor(s, Custom, Some(p.customInput), startedAt).action == p.customInput
      && Turn.LogsWithAction(s, Custom, Some(p.customInput), startedAt)[|s.logs|].content == p.customInput
  {
  }

  /** A suggestion button: `onAction(CUSTOM, choice.action)`. */
  function ChooseSuggestion(
    s: Session, choice: SuggestedAction, service: Service.Oracle, startedAt: string, resolvedAt: string): Session
  {
    Turn.HandleAction(s, Custom, Some(choice.action), service, startedAt, resolvedAt)
  }

  /** A suggestion sends its action text, never its label: the request and
      the user's log entry carry `choice.action`, and two suggestions with
      the same action have the same effect whatever their labels and
      styles. */
  lemma SuggestionSendsAction(
    s: Session, choice: SuggestedAction, other: SuggestedAction,
    service: Service.Oracle, startedAt: string, resolvedAt: string)
    requires other.action == choice.action
    ensures Turn.RequestFor(s, Custom, Some(choice.action), startedAt).action == choice.action
    ensures Turn.LogsWithAction(s, Custom, Some(choice.action), startedAt)[|s.logs|].content == choice.action
    ensures ChooseSuggestion(s, choice, service, startedAt, resolvedAt) ==
      ChooseSuggestion(s, other, service, startedAt, resolvedAt)
  {
  }

  const AGGRESSIVE_CLASS: string := "hover:bg-red-900/40 border-red-800 text-red-100 hover:border-red-500"
  const DIPLOMATIC_CLASS: string := "hover:bg-blue-900/40 border-blue-800 text-blue-100 hover:border-blue-500"
  const ECONOMIC_CLASS: string := "hover:bg-amber-900/40 border-amber-800 text-amber-100 hover:border-amber-500"
  const DEFAULT_CLASS: string := "hover:bg-neutral-800 border-neutral-700 text-neutral-200 hover:border-neutral-500"

  /** `getStyleClass`: Aggressive, Diplomatic and Economic have their own
      colours; Neutral and a missing style fall to the default. */
  function StyleClass(style: Option<ActionStyle>): (c: string)
    ensures style == Some(Aggressive) ==> c == AGGRESSIVE_CLASS
    ensures style == Some(Diplomatic) ==> c == DIPLOMATIC_CLASS
    ensures style == Some(Economic) ==> c == ECONOMIC_CLASS
    ensures style.None? || style == Some(ActionStyle.Neutral) ==> c == DEFAULT_CLASS
  {
    match style
    case Some(Aggressive) => AGGRESSIVE_CLASS
    case Some(Diplomatic) => DIPLOMATIC_CLASS
    case Some(Economic) => ECONOMIC_CLASS
    case _ => DEFAULT_CLASS
  }

  /** Helper for `StyleClassDistinct`: the four classes have different
      lengths, which tells them apart. */
  lemma StyleClassLengths()
    ensures |AGGRESSIVE_CLASS| == 68 && |DIPLOMATIC_CLASS| == 72
    ensures |ECONOMIC_CLASS| == 76 && |DEFAULT_CLASS| == 81
  {
  }

  /** Two styles are drawn alike exactly when both are among Neutral and
      missing, or they are the same style. */
  lemma StyleClassDistinct(a: Option<ActionStyle>, b: Option<ActionStyle>)
    ensures StyleClass(a) == StyleClass(b) <==>
      (a == b || ((a.None? || a == Some(ActionStyle.Neutral)) && (b.None? || b == Some(ActionStyle.Neutral))))
  {
    StyleClassLengths();
  }
}

=== FILE: info_view.dfy ===
/**
 The chronicle panel (`components/InfoModal.tsx`): how a rumor is drawn,
 which rumors are listed as open, the short history of resolved ones, and
 the life-status label of a notable person.
 */
module InfoView {
  import opened Types
  import Reconcile
  import Service

  datatype RumorVisual = RumorVisual(icon: string, bg: string, border: string, text: string)

  const DEFAULT_VISUAL: RumorVisual :=
    RumorVisual("💬", "bg-neutral-800/40", "border-neutral-700", "text-neutral-300")

  /** `getRumorVisuals`: four types have their own look, the rest (Gossip)
      falls to the default. */
  function RumorVisuals(t: RumorType): RumorVisual {
    match t
    case Threat => RumorVisual("⚠️", "bg-red-900/30", "border-red-700/50", "text-red-300")
    case Opportunity => RumorVisual("✨", "bg-amber-900/30", "border-amber-700/50", "text-amber-300")
    case Mystery => RumorVisual("🔮", "bg-purple-900/30", "border-purple-700/50", "text-purple-300")
    case Talent => RumorVisual("🎓", "bg-cyan-900/30", "border-cyan-700/50", "text-cyan-300")
    case Gossip => DEFAULT_VISUAL
  }

  /** Threat, Opportunity, Mystery and Talent each look different from one
      another and from the default; Gossip looks like the default. */
  lemma RumorVisualsDistinct(t: RumorType, u: RumorType)
    ensures RumorVisuals(t) == DEFAULT_VISUAL <==> t == Gossip
    ensures RumorVisuals(t) == RumorVisuals(u) <==> t == u
  {
  }

  /** The heading of an open rumor: its title, or "Tin đồn vô danh". */
  function RumorTitle(r: Rumor): (title: string)
    ensures r.title != "" ==> title == r.title
    ensures r.title == "" ==> title == "Tin đồn vô danh"
  {
    if r.title != "" then r.title else "Tin đồn vô danh"
  }

  /** The line of a resolved rumor: its title, or its first 30 characters
      of content. */
  function ResolvedLine(r: Rumor): (line: string)
    ensures r.title != "" ==> line == r.title
    ensures r.title == "" ==> line == r.content[..if |r.content| < 30 then |r.content| else 30]
  {
    if r.title != "" then r.title else r.content[..if |r.content| < 30 then |r.content| else 30]
  }

  /** The open rumors the tab lists, in stored order. */
  function ActiveList(rumors: seq<Rumor>): seq<Rumor> {
    Reconcile.Unresolved(rumors)
  }

  /** `rumors.some(r => r.isResolved)`. */
  predicate SomeResolved(rumors: seq<Rumor>) {
    exists i :: 0 <= i < |rumors| && rumors[i].isResolved
  }

  /** Some rumor is resolved exactly when the resolved filter is non-empty. */
  lemma SomeResolvedIff(rumors: seq<Rumor>)
    ensures SomeResolved(rumors) <==> |Reconcile.ResolvedOnes(rumors)| > 0
  {
    var all := Reconcile.ResolvedOnes(rumors);
    if SomeResolved(rumors) {
      var i :| 0 <= i < |rumors| && rumors[i].isResolved;
      assert rumors[i] in all;
    }
    if |all| > 0 {
      assert all[0] in all;
      var i :| 0 <= i < |rumors| && rumors[i] == all[0];
      assert rumors[i].isResolved;
    }
  }

  /** The "resolved" section: absent when no rumor is resolved, otherwise
      the last three resolved rumors (or fewer). */
  function ResolvedHistory(rumors: seq<Rumor>): Option<seq<Rumor>> {
    if SomeResolved(rumors)
    then Some(Service.LastN(Reconcile.ResolvedOnes(rumors), 3))
    else None
  }

  /** The open list keeps stored order: for a list made of two parts it is
      the first part's open rumors followed by the second's. */
  lemma {:induction false} ActiveListKeepsOrder(a: seq<Rumor>, b: seq<Rumor>)
    ensures ActiveList(a + b) == ActiveList(a) + ActiveList(b)
    decreases |a|
  {
    if |a| == 0 {
      assert a + b == b;
    } else {
      var ab := a + b;
      assert ab[0] == a[0];
      assert ab[1..] == a[1..] + b;
      ActiveListKeepsOrder(a[1..], b);
    }
  }

  /** The resolved section is shown exactly when some rumor is resolved;
      it holds at most three rumors, all resolved, and they are the newest
      resolved ones in stored order. */
  lemma ResolvedHistorySpec(rumors: seq<Rumor>)
    ensures ResolvedHistory(rumors).Some? <==> |Reconcile.ResolvedOnes(rumors)| > 0
    ensures ResolvedHistory(rumors).Some? ==>
      var h := ResolvedHistory(rumors).value;
      var all := Reconcile.ResolvedOnes(rumors);
      && 1 <= |h| <= 3
      && |h| == (if |all| < 3 then |all| else 3)
      && h == all[|all| - |h|..]
      && (forall x :: x in h ==> x in rumors && x.isResolved)
  {
    SomeResolvedIff(rumors);
    var all := Reconcile.ResolvedOnes(rumors);
    if SomeResolved(rumors) {
      var h := Service.LastN(all, 3);
      assert ResolvedHistory(rumors).value == h;
      assert |h| == (if |all| < 3 then |all| else 3);
      forall x | x in h ensures x in all {
        var k :| 0 <= k < |h| && h[k] == x;
        assert all[|all| - |h| + k] == x;
      }
    }
  }

  /** The label next to a person: alive only for `Alive`; `Dead` and
      `Missing` both read as dead. */
  function StatusLabel(s: PersonStatus): (text: string)
    ensures text == "Còn sống" <==> s == Alive
    ensures text == "Còn sống" || text == "Đã chết"
  {
    if s == Alive then "Còn sống" else "Đã chết"
  }
}

=== FILE: keyed.dfy ===
/**
 Collections keyed by a string id, as the client keeps them: plain arrays
 searched with `findIndex`, `find` and `some` on `x.id`. The id accessor is a
 parameter so that one definition serves entities, people, rumors, divisions
 and buffs alike.
 */
module Keyed {
  import opened Types

  /** Some item of `xs` carries `id` (the source's `xs.some(x => x.id === id)`). */
  predicate HasId<T>(xs: seq<T>, key: T -> string, id: string) {
    exists i :: 0 <= i < |xs| && key(xs[i]) == id
  }

  /** No two items share an id. */
  predicate UniqueIds<T>(xs: seq<T>, key: T -> string) {
    forall i, j :: 0 <= i < j < |xs| ==> key(xs[i]) != key(xs[j])
  }

  /** `a` and `b` carry the same ids at the same positions. */
  predicate SameKeys<T>(a: seq<T>, b: seq<T>, key: T -> string) {
    |a| == |b| && forall j :: 0 <= j < |a| ==> key(a[j]) == key(b[j])
  }

  /** `findIndex(x => x.id === id)`: the first position holding `id`, or -1. */
  function IndexOf<T>(xs: seq<T>, key: T -> string, id: string): (r: int)
    ensures -1 <= r < |xs|
    ensures r == -1 <==> !HasId(xs, key, id)
    ensures 0 <= r ==> key(xs[r]) == id && forall j :: 0 <= j < r ==> key(xs[j]) != id
  {
    if |xs| == 0 then -1
    else if key(xs[0]) == id then 0
    else
      var k := IndexOf(xs[1..], key, id);
      assert forall i :: 1 <= i < |xs| ==> xs[i] == xs[1..][i - 1];
      if k == -1 then -1 else k + 1
  }

  /** `find(x => x.id === id)`: the first item holding `id`, if any. */
  function Find<T>(xs: seq<T>, key: T -> string, id: string): (r: Option<T>)
  {
    var i := IndexOf(xs, key, id);
    if i < 0 then None else Some(xs[i])
  }

  /** The last item holding `id`, if any: the one that wins when a batch of
      updates is applied in order. */
  function FindLast<T>(xs: seq<T>, key: T -> string, id: string): (r: Option<T>)
    ensures r.Some? <==> HasId(xs, key, id)
    ensures r.Some? ==> r.value in xs && key(r.value) == id
  {
    if |xs| == 0 then None
    else if key(xs[|xs| - 1]) == id then Some(xs[|xs| - 1])
    else
      assert forall i :: 0 <= i < |xs| - 1 ==> xs[i] == xs[..|xs| - 1][i];
      FindLast(xs[..|xs| - 1], key, id)
  }

  /** `first` when present, `second` otherwise. */
  function OrElse<T>(first: Option<T>, second: Option<T>): Option<T> {
    if first.Some? then first else second
  }

  lemma {:induction false} HasIdCons<T>(xs: seq<T>, key: T -> string, id: string)
    requires |xs| > 0
    ensures HasId(xs, key, id) <==> key(xs[0]) == id || HasId(xs[1..], key, id)
  {
    if HasId(xs[1..], key, id) {
      var i :| 0 <= i < |xs[1..]| && key(xs[1..][i]) == id;
      assert xs[i + 1] == xs[1..][i];
    }
    if HasId(xs, key, id) && key(xs[0]) != id {
      var i :| 0 <= i < |xs| && key(xs[i]) == id;
      assert xs[1..][i - 1] == xs[i];
    }
  }

  lemma {:induction false} IndexOfSameKeys<T>(a: seq<T>, b: seq<T>, key: T -> string, id: string)
    requires SameKeys(a, b, key)
    ensures IndexOf(a, key, id) == IndexOf(b, key, id)
    decreases |a|
  {
    if |a| > 0 && key(a[0]) != id {
      assert SameKeys(a[1..], b[1..], key) by {
        forall j | 0 <= j < |a[1..]| ensures key(a[1..][j]) == key(b[1..][j]) {
          assert a[1..][j] == a[j + 1] && b[1..][j] == b[j + 1];
        }
      }
      IndexOfSameKeys(a[1..], b[1..], key, id);
    }
  }

  lemma {:induction false} IndexOfAppend<T>(a: seq<T>, y: T, key: T -> string, id: string)
    ensures IndexOf(a + [y], key, id) ==
      if HasId(a, key, id) then IndexOf(a, key, id)
      else if key(y) == id then |a|
      else -1
    decreases |a|
  {
    if |a| == 0 {
      assert a + [y] == [y];
    } else if key(a[0]) != id {
      assert (a + [y])[1..] == a[1..] + [y];
      IndexOfAppend(a[1..], y, key, id);
      HasIdCons(a, key, id);
    } else {
      assert (a + [y])[0] == a[0];
    }
  }

  /** One step of `findIndex` and `find` from the front. */
  lemma FindCons<T>(xs: seq<T>, key: T -> string, id: string)
    requires |xs| > 0
    ensures IndexOf(xs, key, id) ==
      if key(xs[0]) == id then 0
      else if HasId(xs[1..], key, id) then IndexOf(xs[1..], key, id) + 1
      else -1
    ensures Find(xs, key, id) == if key(xs[0]) == id then Some(xs[0]) else Find(xs[1..], key, id)
  {
    if key(xs[0]) != id {
      var k := IndexOf(xs[1..], key, id);
      if k >= 0 {
        assert xs[k + 1] == xs[1..][k];
      }
    }
  }

  // ------------------------------------------------------------ upsert

  /** One step of the entity loop: replace the first item holding `x`'s id in
      place, or append `x` when there is none. */
  function Upsert<T>(xs: seq<T>, key: T -> string, x: T): seq<T>
  {
    var i := IndexOf(xs, key, key(x));
    if i >= 0 then xs[i := x] else xs + [x]
  }

  /** An upsert keeps every position's id and appends exactly when the id was
      missing. */
  lemma UpsertShape<T>(xs: seq<T>, key: T -> string, x: T)
    ensures |Upsert(xs, key, x)| == if HasId(xs, key, key(x)) then |xs| else |xs| + 1
    ensures forall j :: 0 <= j < |xs| ==> key(Upsert(xs, key, x)[j]) == key(xs[j])
    ensures !HasId(xs, key, key(x)) ==> Upsert(xs, key, x)[|xs|] == x
  {
  }

  /** Looked up by id after an upsert, `x`'s id finds `x`, and every other id
      finds what it found before. */
  lemma UpsertFind<T>(xs: seq<T>, key: T -> string, x: T, id: string)
    ensures Find(Upsert(xs, key, x), key, id) == if id == key(x) then Some(x) else Find(xs, key, id)
  {
    var i := IndexOf(xs, key, key(x));
    if i >= 0 {
      assert SameKeys(xs[i := x], xs, key);
      IndexOfSameKeys(xs[i := x], xs, key, id);
    } else {
      IndexOfAppend(xs, x, key, id);
    }
  }

  /** The upsert loop over a whole batch, in order. */
  function UpsertAll<T>(xs: seq<T>, key: T -> string, news: seq<T>): seq<T>
    decreases |news|
  {
    if |news| == 0 then xs else UpsertAll(Upsert(xs, key, news[0]), key, news[1..])
  }

  lemma {:induction false} FindLastCons<T>(xs: seq<T>, key: T -> string, id: string)
    requires |xs| > 0
    ensures FindLast(xs, key, id) ==
      OrElse(FindLast(xs[1..], key, id), if key(xs[0]) == id then Some(xs[0]) else None)
    decreases |xs|
  {
    if |xs| > 1 && key(xs[|xs| - 1]) != id {
      assert xs[..|xs| - 1][1..] == xs[1..][..|xs[1..]| - 1];
      FindLastCons(xs[..|xs| - 1], key, id);
    }
  }

  /** Looked up by id, an upserted collection behaves as a map updated with
      the batch: the last item of the batch with an id wins, and ids the batch
      does not mention keep their old item. */
  lemma {:induction false} UpsertAllFind<T>(xs: seq<T>, key: T -> string, news: seq<T>, id: string)
    ensures Find(UpsertAll(xs, key, news), key, id) == OrElse(FindLast(news, key, id), Find(xs, key, id))
    decreases |news|
  {
    if |news| > 0 {
      UpsertFind(xs, key, news[0], id);
      UpsertAllFind(Upsert(xs, key, news[0]), key, news[1..], id);
      FindLastCons(news, key, id);
    }
  }

  /** Positions never change their id, the collection only grows, every id
      of the batch ends up present, and nothing is appended when every id of
      the batch was already there. */
  lemma {:induction false} UpsertAllShape<T>(xs: seq<T>, key: T -> string, news: seq<T>)
    ensures |UpsertAll(xs, key, news)| >= |xs|
    ensures forall j :: 0 <= j < |xs| ==> key(UpsertAll(xs, key, news)[j]) == key(xs[j])
    ensures forall n :: n in news ==> HasId(UpsertAll(xs, key, news), key, key(n))
    ensures (forall n :: n in news ==> HasId(xs, key, key(n))) ==> |UpsertAll(xs, key, news)| == |xs|
    decreases |news|
  {
    if |news| > 0 {
      var ys := Upsert(xs, key, news[0]);
      UpsertShape(xs, key, news[0]);
      UpsertAllShape(ys, key, news[1..]);
      var r := UpsertAll(ys, key, news[1..]);
      forall n | n in news ensures HasId(r, key, key(n)) {
        if n !in news[1..] {
          UpsertFind(xs, key, news[0], key(n));
          UpsertAllFind(ys, key, news[1..], key(n));
          var i := IndexOf(r, key, key(n));
        }
      }
      if forall n :: n in news ==> HasId(xs, key, key(n)) {
        forall n | n in news[1..] ensures HasId(ys, key, key(n)) {
          var i :| 0 <= i < |xs| && key(xs[i]) == key(n);
          assert key(ys[i]) == key(n);
        }
      }
    }
  }

  lemma UpsertKeepsUnique<T>(xs: seq<T>, key: T -> string, x: T)
    requires UniqueIds(xs, key)
    ensures UniqueIds(Upsert(xs, key, x), key)
  {
    var r := Upsert(xs, key, x);
    UpsertShape(xs, key, x);
    if !HasId(xs, key, key(x)) {
      forall i, j | 0 <= i < j < |r| ensures key(r[i]) != key(r[j]) {
        if j == |xs| {
          assert key(r[i]) == key(xs[i]);
        }
      }
    }
  }

  /** Upserting into a collection with unique ids keeps them unique. */
  lemma {:induction false} UpsertAllKeepsUnique<T>(xs: seq<T>, key: T -> string, news: seq<T>)
    requires UniqueIds(xs, key)
    ensures UniqueIds(UpsertAll(xs, key, news), key)
    decreases |news|
  {
    if |news| > 0 {
      UpsertKeepsUnique(xs, key, news[0]);
      UpsertAllKeepsUnique(Upsert(xs, key, news[0]), key, news[1..]);
    }
  }

  // ---- algebra of single upserts, for idempotence

  /** A later upsert of the same id overwrites an earlier one. */
  lemma UpsertOverwrite<T>(ys: seq<T>, key: T -> string, x: T, y: T)
    requires key(x) == key(y)
    ensures Upsert(Upsert(ys, key, x), key, y) == Upsert(ys, key, y)
  {
    var k := key(x);
    var i := IndexOf(ys, key, k);
    if i >= 0 {
      assert SameKeys(ys[i := x], ys, key);
      IndexOfSameKeys(ys[i := x], ys, key, k);
    } else {
      IndexOfAppend(ys, x, key, k);
      assert (ys + [x])[|ys| := y] == ys + [y];
    }
  }

  /** Upserts of two different ids commute once the first id is present. */
  lemma UpsertCommute<T>(ys: seq<T>, key: T -> string, x: T, y: T)
    requires HasId(ys, key, key(x))
    requires key(x) != key(y)
    ensures Upsert(Upsert(ys, key, x), key, y) == Upsert(Upsert(ys, key, y), key, x)
  {
    if HasId(ys, key, key(y)) {
      UpsertCommuteBothPresent(ys, key, x, y);
    } else {
      UpsertCommuteOneAbsent(ys, key, x, y);
    }
  }

  /** Upserting a present id writes in place and keeps every position's id,
      so every id is found where it was. */
  lemma UpsertInPlace<T>(ys: seq<T>, key: T -> string, x: T, id: string)
    requires HasId(ys, key, key(x))
    ensures Upsert(ys, key, x) == ys[IndexOf(ys, key, key(x)) := x]
    ensures IndexOf(Upsert(ys, key, x), key, id) == IndexOf(ys, key, id)
  {
    var i := IndexOf(ys, key, key(x));
    assert SameKeys(ys[i := x], ys, key);
    IndexOfSameKeys(ys[i := x], ys, key, id);
  }

  lemma UpsertCommuteBothPresent<T>(ys: seq<T>, key: T -> string, x: T, y: T)
    requires HasId(ys, key, key(x)) && HasId(ys, key, key(y))
    requires key(x) != key(y)
    ensures Upsert(Upsert(ys, key, x), key, y) == Upsert(Upsert(ys, key, y), key, x)
  {
    var i := IndexOf(ys, key, key(x));
    var j := IndexOf(ys, key, key(y));
    UpsertInPlace(ys, key, x, key(y));
    UpsertInPlace(ys, key, y, key(x));
    var yx := ys[i := x];
    var yy := ys[j := y];
    assert HasId(yx, key, key(y)) && HasId(yy, key, key(x));
    UpsertInPlace(yx, key, y, key(y));
    UpsertInPlace(yy, key, x, key(x));
    assert i != j;
  }

  lemma UpsertCommuteOneAbsent<T>(ys: seq<T>, key: T -> string, x: T, y: T)
    requires HasId(ys, key, key(x)) && !HasId(ys, key, key(y))
    requires key(x) != key(y)
    ensures Upsert(Upsert(ys, key, x), key, y) == Upsert(Upsert(ys, key, y), key, x)
  {
    var i := IndexOf(ys, key, key(x));
    var yx := ys[i := x];
    assert SameKeys(yx, ys, key);
    IndexOfSameKeys(yx, ys, key, key(y));
    IndexOfAppend(ys, y, key, key(x));
    assert Upsert(yx, key, y) == yx + [y];
    assert Upsert(ys + [y], key, x) == (ys + [y])[i := x];
    assert yx + [y] == (ys + [y])[i := x];
  }

  /** An item already found under its id is left as it is. */
  lemma UpsertPresent<T>(ys: seq<T>, key: T -> string, x: T)
    requires Find(ys, key, key(x)) == Some(x)
    ensures Upsert(ys, key, x) == ys
  {
  }

  /** An earlier upsert of `x` is absorbed by a later batch that also carries
      `x`'s id. */
  lemma {:induction false} UpsertAbsorbed<T>(ys: seq<T>, key: T -> string, x: T, rest: seq<T>)
    requires HasId(ys, key, key(x))
    requires HasId(rest, key, key(x))
    ensures UpsertAll(Upsert(ys, key, x), key, rest) == UpsertAll(ys, key, rest)
    decreases |rest|
  {
    var r0 := rest[0];
    if key(r0) == key(x) {
      UpsertOverwrite(ys, key, x, r0);
    } else {
      UpsertCommute(ys, key, x, r0);
      var zs := Upsert(ys, key, r0);
      UpsertShape(ys, key, r0);
      assert HasId(zs, key, key(x)) by {
        var i :| 0 <= i < |ys| && key(ys[i]) == key(x);
        assert key(zs[i]) == key(x);
      }
      HasIdCons(rest, key, key(x));
      UpsertAbsorbed(zs, key, x, rest[1..]);
    }
  }

  /** Delivering the same batch of entities twice is the same as delivering it
      once. */
  lemma {:induction false} UpsertAllIdempotent<T>(xs: seq<T>, key: T -> string, news: seq<T>)
    ensures UpsertAll(UpsertAll(xs, key, news), key, news) == UpsertAll(xs, key, news)
    decreases |news|
  {
    if |news| > 0 {
      var e, rest := news[0], news[1..];
      var w := Upsert(xs, key, e);
      var z := UpsertAll(w, key, rest);
      assert UpsertAll(z, key, news) == UpsertAll(Upsert(z, key, e), key, rest);
      UpsertAllIdempotent(w, key, rest);
      UpsertFind(xs, key, e, key(e));
      UpsertAllFind(w, key, rest, key(e));
      if HasId(rest, key, key(e)) {
        assert HasId(z, key, key(e)) by {
          var i := IndexOf(z, key, key(e));
        }
        UpsertAbsorbed(z, key, e, rest);
      } else {
        UpsertPresent(z, key, e);
      }
    }
  }

  // ------------------------------------------------------------ replace

  /** One step of the `updated*` loops: replace the first item holding `x`'s
      id, and do nothing when there is none. */
  function Replace<T>(xs: seq<T>, key: T -> string, x: T): seq<T>
  {
    if HasId(xs, key, key(x)) then Upsert(xs, key, x) else xs
  }

  function ReplaceAll<T>(xs: seq<T>, key: T -> string, ups: seq<T>): seq<T>
    decreases |ups|
  {
    if |ups| == 0 then xs else ReplaceAll(Replace(xs, key, ups[0]), key, ups[1..])
  }

  /** Replacing never adds, removes or moves an id; looked up by id, an id the
      collection already holds takes the last update carrying it, and an
      update for an id that is not held is ignored. */
  lemma {:induction false} ReplaceAllSpec<T>(xs: seq<T>, key: T -> string, ups: seq<T>, id: string)
    ensures SameKeys(ReplaceAll(xs, key, ups), xs, key)
    ensures Find(ReplaceAll(xs, key, ups), key, id) ==
      if HasId(xs, key, id) then OrElse(FindLast(ups, key, id), Find(xs, key, id)) else None
    decreases |ups|
  {
    if |ups| > 0 {
      var ys := Replace(xs, key, ups[0]);
      UpsertShape(xs, key, ups[0]);
      UpsertFind(xs, key, ups[0], id);
      assert SameKeys(ys, xs, key);
      ReplaceAllSpec(ys, key, ups[1..], id);
      FindLastCons(ups, key, id);
      SameKeysHasId(ys, xs, key, id);
      SameKeysTrans(ReplaceAll(ys, key, ups[1..]), ys, xs, key);
    }
  }

  lemma SameKeysHasId<T>(a: seq<T>, b: seq<T>, key: T -> string, id: string)
    requires SameKeys(a, b, key)
    ensures HasId(a, key, id) <==> HasId(b, key, id)
  {
    if HasId(a, key, id) {
      var i :| 0 <= i < |a| && key(a[i]) == id;
      assert key(b[i]) == id;
    }
    if HasId(b, key, id) {
      var i :| 0 <= i < |b| && key(b[i]) == id;
      assert key(a[i]) == id;
    }
  }

  lemma SameKeysTrans<T>(a: seq<T>, b: seq<T>, c: seq<T>, key: T -> string)
    requires SameKeys(a, b, key) && SameKeys(b, c, key)
    ensures SameKeys(a, c, key)
  {
  }

  // ----------------------------------------------------- insert if absent

  /** One step of the rumor and buff loops: append `x` only when no item
      already carries its id. */
  function InsertAbsent<T>(xs: seq<T>, key: T -> string, x: T): seq<T> {
    if HasId(xs, key, key(x)) then xs else xs + [x]
  }

  function InsertAllAbsent<T>(xs: seq<T>, key: T -> string, news: seq<T>): seq<T>
    decreases |news|
  {
    if |news| == 0 then xs else InsertAllAbsent(InsertAbsent(xs, key, news[0]), key, news[1..])
  }

  /** Insertion never overwrites or reorders what was there, adds only items
      of the batch, makes every id of the batch present, and keeps ids
      unique; when every id is already present it changes nothing. */
  lemma {:induction false} InsertAllAbsentSpec<T>(xs: seq<T>, key: T -> string, news: seq<T>)
    ensures |xs| <= |InsertAllAbsent(xs, key, news)|
    ensures InsertAllAbsent(xs, key, news)[..|xs|] == xs
    ensures forall j :: |xs| <= j < |InsertAllAbsent(xs, key, news)| ==> InsertAllAbsent(xs, key, news)[j] in news
    ensures forall n :: n in news ==> HasId(InsertAllAbsent(xs, key, news), key, key(n))
    ensures UniqueIds(xs, key) ==> UniqueIds(InsertAllAbsent(xs, key, news), key)
    ensures (forall n :: n in news ==> HasId(xs, key, key(n))) ==> InsertAllAbsent(xs, key, news) == xs
    decreases |news|
  {
    if |news| > 0 {
      var ys := InsertAbsent(xs, key, news[0]);
      InsertAllAbsentSpec(ys, key, news[1..]);
      var r := InsertAllAbsent(ys, key, news[1..]);
      assert ys[..|xs|] == xs;
      assert r[..|xs|] == r[..|ys|][..|xs|];
      forall j | |xs| <= j < |r| ensures r[j] in news {
        if j < |ys| {
          assert r[j] == r[..|ys|][j] == ys[j] == news[0];
        } else {
          assert r[j] in news[1..];
        }
      }
      forall n | n in news ensures HasId(r, key, key(n)) {
        if n !in news[1..] {
          var i :| 0 <= i < |ys| && key(ys[i]) == key(n);
          assert r[i] == r[..|ys|][i] == ys[i];
        }
      }
      if UniqueIds(xs, key) && !HasId(xs, key, key(news[0])) {
        forall i, j | 0 <= i < j < |ys| ensures key(ys[i]) != key(ys[j]) {
          if j == |xs| {
            assert ys[i] == xs[i];
          }
        }
      }
    }
  }

  /** After insertion an id is present exactly when it was present before
      or the batch carries it. */
  lemma InsertAllAbsentHasId<T>(xs: seq<T>, key: T -> string, news: seq<T>, id: string)
    ensures HasId(InsertAllAbsent(xs, key, news), key, id) <==> HasId(xs, key, id) || HasId(news, key, id)
  {
    InsertAllAbsentSpec(xs, key, news);
    var r := InsertAllAbsent(xs, key, news);
    if HasId(r, key, id) && !HasId(xs, key, id) {
      var j :| 0 <= j < |r| && key(r[j]) == id;
      if j >= |xs| {
        assert r[j] in news;
        var k :| 0 <= k < |news| && news[k] == r[j];
      }
    }
    if HasId(xs, key, id) {
      var j :| 0 <= j < |xs| && key(xs[j]) == id;
      assert r[j] == r[..|xs|][j];
    }
    if HasId(news, key, id) {
      var k :| 0 <= k < |news| && key(news[k]) == id;
      assert news[k] in news;
    }
  }

  /** Delivering the same batch of rumors or buffs twice is the same as
      delivering it once. */
  lemma InsertAllAbsentIdempotent<T>(xs: seq<T>, key: T -> string, news: seq<T>)
    ensures InsertAllAbsent(InsertAllAbsent(xs, key, news), key, news) == InsertAllAbsent(xs, key, news)
  {
    InsertAllAbsentSpec(xs, key, news);
    InsertAllAbsentSpec(InsertAllAbsent(xs, key, news), key, news);
  }

  /** Looked up by id, insertion behaves as a map that is never
      overwritten: a known id keeps its item, and a new id finds the first
      item of the batch that carries it. */
  lemma {:induction false} InsertAllAbsentFind<T>(xs: seq<T>, key: T -> string, news: seq<T>, id: string)
    ensures Find(InsertAllAbsent(xs, key, news), key, id) == OrElse(Find(xs, key, id), Find(news, key, id))
    decreases |news|
  {
    if |news| > 0 {
      var x := news[0];
      var ys := InsertAbsent(xs, key, x);
      InsertAllAbsentFind(ys, key, news[1..], id);
      FindCons(news, key, id);
      if !HasId(xs, key, key(x)) {
        IndexOfAppend(xs, x, key, id);
      } else if key(x) == id {
        assert Find(xs, key, id).Some?;
      }
    }
  }

  /** Helper for `InsertAllAbsentFresh` and `InsertAllAbsentOrder`: after
      one insertion step the old ids and the inserted item's id are
      present. */
  lemma PresentAfterStep<T>(xs: seq<T>, key: T -> string, x: T, id: string)
    ensures HasId(xs, key, id) || id == key(x) ==> HasId(InsertAbsent(xs, key, x), key, id)
  {
    var ys := InsertAbsent(xs, key, x);
    if HasId(xs, key, id) {
      var i :| 0 <= i < |xs| && key(xs[i]) == id;
      assert key(ys[i]) == id;
    }
    if !HasId(xs, key, key(x)) {
      assert ys[|xs|] == x;
    }
  }

  /** Every item insertion appends carries an id the list did not have, and
      is the first item of the batch with that id: a later duplicate in the
      batch never replaces it. */
  lemma {:induction false} InsertAllAbsentFresh<T>(xs: seq<T>, key: T -> string, news: seq<T>)
    ensures |xs| <= |InsertAllAbsent(xs, key, news)|
    ensures forall j :: |xs| <= j < |InsertAllAbsent(xs, key, news)| ==>
      !HasId(xs, key, key(InsertAllAbsent(xs, key, news)[j]))
      && Find(news, key, key(InsertAllAbsent(xs, key, news)[j])) == Some(InsertAllAbsent(xs, key, news)[j])
    decreases |news|
  {
    InsertAllAbsentSpec(xs, key, news);
    if |news| > 0 {
      var x := news[0];
      var ys := InsertAbsent(xs, key, x);
      var r := InsertAllAbsent(ys, key, news[1..]);
      InsertAllAbsentFresh(ys, key, news[1..]);
      InsertAllAbsentSpec(ys, key, news[1..]);
      forall j | |xs| <= j < |r|
        ensures !HasId(xs, key, key(r[j])) && Find(news, key, key(r[j])) == Some(r[j])
      {
        FindCons(news, key, key(r[j]));
        if j < |ys| {
          assert r[j] == r[..|ys|][j] == ys[j] == x;
        } else {
          PresentAfterStep(xs, key, x, key(r[j]));
        }
      }
    }
  }

  /** Insertion appends new ids in the order the batch first delivers
      them. */
  lemma {:induction false} InsertAllAbsentOrder<T>(xs: seq<T>, key: T -> string, news: seq<T>)
    ensures forall j, k :: |xs| <= j < k < |InsertAllAbsent(xs, key, news)| ==>
      IndexOf(news, key, key(InsertAllAbsent(xs, key, news)[j]))
        < IndexOf(news, key, key(InsertAllAbsent(xs, key, news)[k]))
    decreases |news|
  {
    if |news| > 0 {
      var x := news[0];
      var ys := InsertAbsent(xs, key, x);
      var r := InsertAllAbsent(ys, key, news[1..]);
      InsertAllAbsentOrder(ys, key, news[1..]);
      InsertAllAbsentFresh(ys, key, news[1..]);
      InsertAllAbsentSpec(ys, key, news[1..]);
      assert InsertAllAbsent(xs, key, news) == r;
      forall j, k | |xs| <= j < k < |r|
        ensures IndexOf(news, key, key(r[j])) < IndexOf(news, key, key(r[k]))
      {
        PresentAfterStep(xs, key, x, key(r[k]));
        FindCons(news, key, key(r[k]));
        if j < |ys| {
          assert r[j] == r[..|ys|][j] == ys[j] == x;
          FindCons(news, key, key(x));
        } else {
          PresentAfterStep(xs, key, x, key(r[j]));
          FindCons(news, key, key(r[j]));
        }
      }
    }
  }

  // ------------------------------------------------------------ removal

  /** `filter(x => !ids.includes(x.id))`. */
  function RemoveIds<T>(xs: seq<T>, key: T -> string, ids: seq<string>): seq<T>
  {
    if |xs| == 0 then []
    else if key(xs[0]) in ids then RemoveIds(xs[1..], key, ids)
    else [xs[0]] + RemoveIds(xs[1..], key, ids)
  }

  /** Removal keeps exactly the items whose id is not listed, and keeps ids
      unique. */
  lemma {:induction false} RemoveIdsSpec<T>(xs: seq<T>, key: T -> string, ids: seq<string>)
    ensures |RemoveIds(xs, key, ids)| <= |xs|
    ensures forall j :: 0 <= j < |RemoveIds(xs, key, ids)| ==>
      RemoveIds(xs, key, ids)[j] in xs && key(RemoveIds(xs, key, ids)[j]) !in ids
    ensures forall j :: 0 <= j < |xs| && key(xs[j]) !in ids ==> xs[j] in RemoveIds(xs, key, ids)
    ensures forall id :: HasId(RemoveIds(xs, key, ids), key, id) <==> HasId(xs, key, id) && id !in ids
    ensures UniqueIds(xs, key) ==> UniqueIds(RemoveIds(xs, key, ids), key)
    decreases |xs|
  {
    if |xs| > 0 {
      var rest := RemoveIds(xs[1..], key, ids);
      var r := RemoveIds(xs, key, ids);
      RemoveIdsSpec(xs[1..], key, ids);
      forall id ensures HasId(xs, key, id) <==> key(xs[0]) == id || HasId(xs[1..], key, id) {
        HasIdCons(xs, key, id);
      }
      forall j | 0 <= j < |xs| && key(xs[j]) !in ids ensures xs[j] in r {
        if j > 0 {
          assert xs[j] == xs[1..][j - 1];
        }
      }
      if key(xs[0]) !in ids {
        assert r == [xs[0]] + rest;
        forall id ensures HasId(r, key, id) <==> key(xs[0]) == id || HasId(rest, key, id) {
          assert r[1..] == rest;
          HasIdCons(r, key, id);
        }
        if UniqueIds(xs, key) {
          assert !HasId(xs[1..], key, key(xs[0])) by {
            forall i | 0 <= i < |xs[1..]| ensures key(xs[1..][i]) != key(xs[0]) {
              assert xs[1..][i] == xs[i + 1];
            }
          }
          assert UniqueIds(xs[1..], key) by {
            forall i, j | 0 <= i < j < |xs[1..]| ensures key(xs[1..][i]) != key(xs[1..][j]) {
              assert xs[1..][i] == xs[i + 1] && xs[1..][j] == xs[j + 1];
            }
          }
          forall i, j | 0 <= i < j < |r| ensures key(r[i]) != key(r[j]) {
            assert r[j] == rest[j - 1];
            if i == 0 {
              assert HasId(rest, key, key(r[j]));
            } else {
              assert r[i] == rest[i - 1];
            }
          }
        }
      } else if UniqueIds(xs, key) {
        forall i, j | 0 <= i < j < |xs[1..]| ensures key(xs[1..][i]) != key(xs[1..][j]) {
          assert xs[1..][i] == xs[i + 1] && xs[1..][j] == xs[j + 1];
        }
      }
    }
  }

  /** Removal keeps the order and the multiplicity of what it keeps:
      filtering a list made of two parts filters each part and keeps the
      first part's items first. */
  lemma {:induction false} RemoveIdsKeepsOrder<T>(a: seq<T>, b: seq<T>, key: T -> string, ids: seq<string>)
    ensures RemoveIds(a + b, key, ids) == RemoveIds(a, key, ids) + RemoveIds(b, key, ids)
    decreases |a|
  {
    if |a| == 0 {
      assert a + b == b;
    } else {
      var ab := a + b;
      assert ab[0] == a[0];
      assert ab[1..] == a[1..] + b;
      RemoveIdsKeepsOrder(a[1..], b, key, ids);
    }
  }

  /** Looked up by id, removal forgets the listed ids and leaves every
      other id's item as it was. */
  lemma {:induction false} RemoveIdsFind<T>(xs: seq<T>, key: T -> string, ids: seq<string>, id: string)
    ensures Find(RemoveIds(xs, key, ids), key, id) == if id in ids then None else Find(xs, key, id)
    decreases |xs|
  {
    if |xs| > 0 {
      var rest := RemoveIds(xs[1..], key, ids);
      RemoveIdsFind(xs[1..], key, ids, id);
      FindCons(xs, key, id);
      if key(xs[0]) !in ids {
        assert RemoveIds(xs, key, ids) == [xs[0]] + rest;
        FindCons([xs[0]] + rest, key, id);
        assert ([xs[0]] + rest)[1..] == rest;
      }
    } else {
      assert !HasId(xs, key, id);
    }
  }

  /** An empty id list removes nothing. */
  lemma {:induction false} RemoveNoIds<T>(xs: seq<T>, key: T -> string)
    ensures RemoveIds(xs, key, []) == xs
    decreases |xs|
  {
    if |xs| > 0 {
      RemoveNoIds(xs[1..], key);
      assert xs == [xs[0]] + xs[1..];
    }
  }
}

=== FILE: ledger.dfy ===
/**
 The resource ledger and calendar of a non-game-over turn (`handleAction`,
 `App.tsx`): the months the turn takes, the month rollover, and the clamped
 new totals.
 */
module Ledger {
  import opened Types

  /** `result.monthsPassed || 1`: an absent count and the falsy count 0
      both mean one month; any other count, negative ones included, is
      taken as it is. */
  function EffectiveMonths(monthsPassed: Option<int>): (r: int)
    ensures r != 0
    ensures monthsPassed.Some? && monthsPassed.value != 0 ==> r == monthsPassed.value
    ensures monthsPassed.None? || monthsPassed.value == 0 ==> r == 1
  {
    if monthsPassed.Some? && monthsPassed.value != 0 then monthsPassed.value else 1
  }

  /** The number of months since year 0 of the calendar position
      (`year`, `month`). */
  function AbsoluteMonth(year: int, month: int): int {
    year * 12 + month
  }

  /** The position the rollover loop settles on for a month counter `month`
      that may have run past 12: it stays put when `month <= 12`, and
      otherwise moves whole years out of the counter until it is in 1..12. */
  function RolledOver(year: int, month: int): (r: (int, int))
    ensures AbsoluteMonth(r.0, r.1) == AbsoluteMonth(year, month)
    ensures r.1 <= 12
    ensures month >= 1 ==> 1 <= r.1
    ensures month <= 12 ==> r == (year, month)
    ensures month > 12 ==> r.0 > year
  {
    if month <= 12 then (year, month)
    else (year + (month - 1) / 12, (month - 1) % 12 + 1)
  }

  /** Two ways of writing `a` as `12 * q + r` with `0 <= r < 12` agree. */
  lemma {:induction false} DivideByTwelveUnique(a: int, q: int, r: int)
    requires 0 <= r < 12 && a == 12 * q + r
    ensures q == a / 12 && r == a % 12
  {
    var q', r' := a / 12, a % 12;
    assert 12 * (q - q') == r' - r;
  }

  /** The rollover loop of `handleAction`: add the effective months, then
      subtract twelve and add a year while the month exceeds 12. */
  method AdvanceCalendar(year: int, month: int, monthsPassed: Option<int>) returns (nextYear: int, nextMonth: int)
    ensures AbsoluteMonth(nextYear, nextMonth) == AbsoluteMonth(year, month) + EffectiveMonths(monthsPassed)
    ensures nextMonth <= 12
    ensures month + EffectiveMonths(monthsPassed) >= 1 ==> 1 <= nextMonth
    ensures (nextYear, nextMonth) == RolledOver(year, month + EffectiveMonths(monthsPassed))
  {
    var m := month + EffectiveMonths(monthsPassed);
    nextMonth := m;
    nextYear := year;
    while nextMonth > 12
      invariant AbsoluteMonth(nextYear, nextMonth) == AbsoluteMonth(year, m)
      invariant m > 12 ==> 1 <= nextMonth
      invariant m <= 12 ==> nextYear == year && nextMonth == m
      decreases nextMonth
    {
      nextMonth := nextMonth - 12;
      nextYear := nextYear + 1;
    }
    if m > 12 {
      DivideByTwelveUnique(m - 1, nextYear - year, nextMonth - 1);
    }
  }

  /** `Math.max(0, v)`. */
  function Floor0(v: int): (r: int)
    ensures r >= 0 && r >= v
    ensures v >= 0 ==> r == v
    ensures v < 0 ==> r == 0
  {
    if v < 0 then 0 else v
  }

  /** `Math.min(100, Math.max(0, v))`. */
  function ClampHappiness(v: int): (r: int)
    ensures 0 <= r <= 100
    ensures 0 <= v <= 100 ==> r == v
    ensures v < 0 ==> r == 0
    ensures v > 100 ==> r == 100
  {
    if v < 0 then 0 else if v > 100 then 100 else v
  }

  /** The new stats of a non-game-over turn: calendar advanced by the
      effective months, every resource the old total plus the delta floored
      at 0, happiness clamped to 0..100, and the tax policy kept. */
  function ApplyLedger(stats: KingdomStats, delta: StatsDelta, monthsPassed: Option<int>): (r: KingdomStats)
    ensures AbsoluteMonth(r.year, r.month) == AbsoluteMonth(stats.year, stats.month) + EffectiveMonths(monthsPassed)
    ensures r.month <= 12
    ensures stats.month + EffectiveMonths(monthsPassed) >= 1 ==> 1 <= r.month
    ensures r.gold >= 0 && r.food >= 0 && r.population >= 0 && r.army >= 0
    ensures r.wood >= 0 && r.stone >= 0 && r.manpower >= 0 && r.supplies >= 0 && r.economicPower >= 0
    ensures 0 <= r.happiness <= 100
    ensures r.taxRate == stats.taxRate
  {
    var (y, m) := RolledOver(stats.year, stats.month + EffectiveMonths(monthsPassed));
    KingdomStats(
      year := y,
      month := m,
      gold := Floor0(stats.gold + delta.gold),
      food := Floor0(stats.food + delta.food),
      population := Floor0(stats.population + delta.population),
      army := Floor0(stats.army + delta.army),
      happiness := ClampHappiness(stats.happiness + delta.happiness),
      wood := Floor0(stats.wood + delta.wood),
      stone := Floor0(stats.stone + delta.stone),
      manpower := Floor0(stats.manpower + delta.manpower),
      supplies := Floor0(stats.supplies + delta.supplies),
      economicPower := Floor0(stats.economicPower + delta.economicPower),
      taxRate := stats.taxRate)
  }

  /** The per-field difference between two snapshots' resources. */
  function Difference(before: KingdomStats, after: KingdomStats): StatsDelta {
    StatsDelta(
      after.gold - before.gold, after.food - before.food,
      after.population - before.population, after.army - before.army,
      after.happiness - before.happiness, after.wood - before.wood,
      after.stone - before.stone, after.manpower - before.manpower,
      after.supplies - before.supplies, after.economicPower - before.economicPower)
  }

  /** Stats a running game keeps: a month in 1..12, no negative resource,
      happiness in 0..100. */
  predicate ValidStats(s: KingdomStats) {
    && 1 <= s.month <= 12
    && s.gold >= 0 && s.food >= 0 && s.population >= 0 && s.army >= 0
    && 0 <= s.happiness <= 100
    && s.wood >= 0 && s.stone >= 0 && s.manpower >= 0 && s.supplies >= 0 && s.economicPower >= 0
  }

  /** No clamp fires: every new total is in range. */
  predicate WithinBounds(stats: KingdomStats, delta: StatsDelta) {
    && stats.gold + delta.gold >= 0 && stats.food + delta.food >= 0
    && stats.population + delta.population >= 0 && stats.army + delta.army >= 0
    && 0 <= stats.happiness + delta.happiness <= 100
    && stats.wood + delta.wood >= 0 && stats.stone + delta.stone >= 0
    && stats.manpower + delta.manpower >= 0 && stats.supplies + delta.supplies >= 0
    && stats.economicPower + delta.economicPower >= 0
  }

  /** The resources move by exactly the delta (the raw change the turn
      records) precisely when no clamp fires. */
  lemma LedgerExact(stats: KingdomStats, delta: StatsDelta, monthsPassed: Option<int>)
    ensures Difference(stats, ApplyLedger(stats, delta, monthsPassed)) == delta <==> WithinBounds(stats, delta)
  {
  }

  /** Clamping never reverses a change: each resource of valid stats moves
      in the direction of its delta, or stays put. */
  lemma LedgerDirection(stats: KingdomStats, delta: StatsDelta, monthsPassed: Option<int>)
    requires ValidStats(stats)
    ensures var r := ApplyLedger(stats, delta, monthsPassed);
      && (delta.gold >= 0 ==> stats.gold <= r.gold <= stats.gold + delta.gold)
      && (delta.gold <= 0 ==> stats.gold + delta.gold <= r.gold <= stats.gold)
      && (delta.food >= 0 ==> stats.food <= r.food <= stats.food + delta.food)
      && (delta.food <= 0 ==> stats.food + delta.food <= r.food <= stats.food)
      && (delta.happiness >= 0 ==> stats.happiness <= r.happiness <= stats.happiness + delta.happiness)
      && (delta.happiness <= 0 ==> stats.happiness + delta.happiness <= r.happiness <= stats.happiness)
  {
  }

  /** Each new total is the old one plus the delta, except that a resource
      driven below zero is exactly 0 and happiness driven out of 0..100 is
      exactly the bound it crossed. */
  lemma LedgerClamps(stats: KingdomStats, delta: StatsDelta, monthsPassed: Option<int>)
    ensures var r := ApplyLedger(stats, delta, monthsPassed);
      && r.gold == (if stats.gold + delta.gold < 0 then 0 else stats.gold + delta.gold)
      && r.food == (if stats.food + delta.food < 0 then 0 else stats.food + delta.food)
      && r.population == (if stats.population + delta.population < 0 then 0 else stats.population + delta.population)
      && r.army == (if stats.army + delta.army < 0 then 0 else stats.army + delta.army)
      && r.wood == (if stats.wood + delta.wood < 0 then 0 else stats.wood + delta.wood)
      && r.stone == (if stats.stone + delta.stone < 0 then 0 else stats.stone + delta.stone)
      && r.manpower == (if stats.manpower + delta.manpower < 0 then 0 else stats.manpower + delta.manpower)
      && r.supplies == (if stats.supplies + delta.supplies < 0 then 0 else stats.supplies + delta.supplies)
      && r.economicPower ==
           (if stats.economicPower + delta.economicPower < 0 then 0 else stats.economicPower + delta.economicPower)
      && r.happiness == (if stats.happiness + delta.happiness < 0 then 0
                         else if stats.happiness + delta.happiness > 100 then 100
                         else stats.happiness + delta.happiness)
  {
  }

  /** Gold 100 overdrawn by 150 is 0, not any smaller loss. */
  lemma OverdrawnGoldIsZero(stats: KingdomStats, delta: StatsDelta, monthsPassed: Option<int>)
    requires stats.gold == 100 && delta.gold == -150
    ensures ApplyLedger(stats, delta, monthsPassed).gold == 0
  {
  }

  /** A non-game-over turn keeps stats valid as long as it does not move
      the calendar backwards past the start of the year. */
  lemma LedgerPreservesValid(stats: KingdomStats, delta: StatsDelta, monthsPassed: Option<int>)
    requires ValidStats(stats)
    requires stats.month + EffectiveMonths(monthsPassed) >= 1
    ensures ValidStats(ApplyLedger(stats, delta, monthsPassed))
  {
  }

  /** An absent, zero or positive month count moves the calendar forward by
      at least one month and keeps valid stats valid. */
  lemma CalendarForward(stats: KingdomStats, delta: StatsDelta, monthsPassed: Option<int>)
    requires ValidStats(stats)
    requires monthsPassed.None? || monthsPassed.value >= 0
    ensures AbsoluteMonth(ApplyLedger(stats, delta, monthsPassed).year, ApplyLedger(stats, delta, monthsPassed).month)
      >= AbsoluteMonth(stats.year, stats.month) + 1
    ensures ValidStats(ApplyLedger(stats, delta, monthsPassed))
  {
  }

  /** A zero delta on valid stats changes nothing but the calendar. */
  lemma ZeroDeltaKeepsResources(stats: KingdomStats, monthsPassed: Option<int>)
    requires ValidStats(stats)
    ensures var r := ApplyLedger(stats, StatsDelta(0, 0, 0, 0, 0, 0, 0, 0, 0, 0), monthsPassed);
      r == stats.(year := r.year, month := r.month)
  {
  }

  /** Gold 100, army 10, food 500 with gold -20 and food -20 over an absent
      month count gives gold 80, army 10, food 480, one month later. */
  lemma ScenarioLedger(stats: KingdomStats)
    requires ValidStats(stats) && stats.month < 12
    requires stats.gold == 100 && stats.army == 10 && stats.food == 500
    ensures var r := ApplyLedger(stats, StatsDelta(-20, -20, 0, 0, 0, 0, 0, 0, 0, 0), None);
      r.gold == 80 && r.army == 10 && r.food == 480 && r.year == stats.year && r.month == stats.month + 1
  {
  }

  /** Rollover examples: month 11 plus 3 is month 2 of the next year, month
      12 plus 12 is month 12 of the next year, month 12 plus 25 is month 1
      three years on, and month 5 plus 0 (falsy) is month 6. */
  lemma CalendarExamples()
    ensures RolledOver(1, 11 + EffectiveMonths(Some(3))) == (2, 2)
    ensures RolledOver(1, 12 + EffectiveMonths(Some(12))) == (2, 12)
    ensures RolledOver(1, 12 + EffectiveMonths(Some(25))) == (4, 1)
    ensures RolledOver(7, 5 + EffectiveMonths(Some(0))) == (7, 6)
  {
  }
}

=== FILE: lifecycle.dfy ===
/**
 Starting, saving, loading and leaving a game (`App.tsx`): `startNewGame`,
 the save bundle and its file name, the validation and defaults of
 `handleFileUpload`, and `exitToMenu`.
 */
module Lifecycle {
  import opened Types
  import opened AppState
  import Text
  import Reconcile
  import Ledger
  import Service

  // ------------------------------------------------------------ new game

  /** How the awaited initialization call ended: with a result, or by
      throwing into the `catch` branch. */
  datatype InitOutcome = Returned(result: TurnResult) | Threw

  /** The stats a new game starts from when the service proposes none. */
  const FALLBACK_START: KingdomStats :=
    ZERO_STATS.(gold := 100, food := 500, population := 100, army := 10,
                happiness := 50, economicPower := 10, taxRate := Some(Standard))

  /** The stats of the `catch` branch. */
  const EMPTY_HANDED_START: KingdomStats :=
    ZERO_STATS.(gold := 50, food := 100, population := 50, army := 0, happiness := 50)

  const INIT_TITLE: string := "Khởi Nguyên"

  const INIT_FAILURE_TEXT: string :=
    "Hệ thống gặp sự cố khi kiến tạo thế giới. Bạn bắt đầu với hai bàn tay trắng."

  const EMPTY_HANDED_CHOICES: seq<SuggestedAction> := [
    SuggestedAction("Tìm kiếm thức ăn", "Cho người đi hái lượm và săn bắn", Some(Economic)),
    SuggestedAction("Xây dựng lều trại", "Dựng nơi trú ẩn tạm thời", Some(ActionStyle.Neutral))
  ]

  /** The request of the first turn: zero stats, the init action, empty
      world, house, buffs and history. */
  function InitRequest(settings: GameSettings): Service.TurnRequest {
    Service.BuildRequest(ZERO_STATS, Service.INIT_ACTION, settings, INITIAL_WORLD_INFO, INITIAL_HERITAGE, [], [])
  }

  /** The state `startNewGame` leaves once the call has ended. */
  function SeedSession(s: Session, settings: GameSettings, outcome: InitOutcome): Session {
    var reset := s.(
      view := InGame, settings := settings, stats := ZERO_STATS,
      worldInfo := INITIAL_WORLD_INFO, heritage := INITIAL_HERITAGE, activeBuffs := [],
      currentChoices := [], gameOver := false, lastChange := None, logs := [],
      isProcessing := false);
    match outcome
    case Returned(result) =>
      reset.(
        stats := result.initialStats.GetOr(FALLBACK_START),
        worldInfo := if result.worldUpdate.Some? then Reconcile.ApplyWorldUpdate(INITIAL_WORLD_INFO, result.worldUpdate.value) else INITIAL_WORLD_INFO,
        heritage := if result.politicalUpdate.Some? then Reconcile.ApplyPoliticalUpdate(INITIAL_HERITAGE, result.politicalUpdate.value) else INITIAL_HERITAGE,
        activeBuffs := if result.buffsUpdate.Some? then Reconcile.ApplyBuffsUpdate([], result.buffsUpdate.value) else [],
        currentChoices := result.suggestedActions,
        logs := [GameLog("init", Ai, result.narrative, YearMonth(1, 1), Some(INIT_TITLE), None)])
    case Threw =>
      reset.(
        stats := EMPTY_HANDED_START,
        currentChoices := EMPTY_HANDED_CHOICES,
        logs := [GameLog("init", System, INIT_FAILURE_TEXT, YearOnly(1), None, None)])
  }

  /** `startNewGame`: `processGameTurn` never throws, so the outcome is
      always the returned result. */
  function StartNewGame(s: Session, settings: GameSettings, service: Service.Oracle): Session {
    SeedSession(s, settings, Returned(Service.ProcessGameTurn(service(InitRequest(settings)))))
  }

  /** A new game forgets everything about the previous one: it shows the
      game screen, is not waiting, has not ended, has no recorded delta,
      uses the new settings, and its log is the single "init" entry holding
      the first narrative on the first month. Its stats are the proposed
      ones or the fixed starter snapshot; its choices are the result's. */
  lemma StartNewGameSpec(s: Session, s': Session, settings: GameSettings, service: Service.Oracle)
    ensures var result := Service.ProcessGameTurn(service(InitRequest(settings)));
      var r := StartNewGame(s, settings, service);
      && r == StartNewGame(s', settings, service)
      && r.view == InGame && !r.isProcessing && !r.gameOver && r.lastChange.None?
      && r.settings == settings
      && r.logs == [GameLog("init", Ai, result.narrative, YearMonth(1, 1), Some(INIT_TITLE), None)]
      && r.stats == (if result.initialStats.Some? then result.initialStats.value else FALLBACK_START)
      && r.currentChoices == result.suggestedActions
  {
    var result := Service.ProcessGameTurn(service(InitRequest(settings)));
    assert StartNewGame(s, settings, service) == SeedSession(s, settings, Returned(result));
    assert StartNewGame(s', settings, service) == SeedSession(s', settings, Returned(result));
  }

  /** The first result's delta, game-over flag, reason and month count are
      all ignored. */
  lemma StartIgnoresTurnFields(
    s: Session, settings: GameSettings, result: TurnResult,
    delta: StatsDelta, over: bool, reason: Option<string>, months: Option<int>)
    ensures SeedSession(s, settings, Returned(result)) ==
      SeedSession(s, settings, Returned(result.(statsChange := delta, isGameOver := over, gameOverReason := reason, monthsPassed := months)))
  {
  }

  /** The first request is the init request: it carries the
      initialization block, an empty history and no rumors. */
  lemma InitRequestSpec(settings: GameSettings)
    ensures InitRequest(settings).initBlock ==
      Some(Service.InitBlock(settings.background, settings.leaderDescription, settings.leaderName))
    ensures InitRequest(settings).history == [] && InitRequest(settings).activeRumors == []
  {
  }

  /** Without proposed stats a new game starts at gold 100, food 500,
      population 100, army 10, happiness 50, power 10, Standard tax, on
      month 1 of year 1 with nothing else; in particular after a failed
      first call. */
  lemma StarterSnapshot(s: Session, settings: GameSettings, service: Service.Oracle)
    requires Service.ProcessGameTurn(service(InitRequest(settings))).initialStats.None?
    ensures var st := StartNewGame(s, settings, service).stats;
      && st.gold == 100 && st.food == 500 && st.population == 100 && st.army == 10
      && st.happiness == 50 && st.economicPower == 10 && st.taxRate == Some(Standard)
      && st.year == 1 && st.month == 1
      && st.wood == 0 && st.stone == 0 && st.manpower == 0 && st.supplies == 0
      && Ledger.ValidStats(st)
  {
  }

  /** A failed or empty first reply starts the game on the starter
      snapshot with the fallback narrative and no choices at all. */
  lemma FailedInitCall(s: Session, settings: GameSettings, reply: Service.ServiceReply)
    requires !reply.Parsed?
    ensures var r := SeedSession(s, settings, Returned(Service.ProcessGameTurn(reply)));
      && r.stats == FALLBACK_START && r.currentChoices == []
      && r.logs == [GameLog("init", Ai, Service.FALLBACK_NARRATIVE, YearMonth(1, 1), Some(INIT_TITLE), None)]
      && r.worldInfo == INITIAL_WORLD_INFO && r.heritage == INITIAL_HERITAGE && r.activeBuffs == []
  {
  }

  /** The `catch` branch: gold 50, food 100, population 50, no army,
      happiness 50, a system entry stamped with the year alone, and the two
      starter choices. */
  lemma CatchBranch(s: Session, settings: GameSettings)
    ensures var r := SeedSession(s, settings, Threw);
      && r.stats.gold == 50 && r.stats.food == 100 && r.stats.population == 50 && r.stats.army == 0
      && r.stats.happiness == 50 && r.stats.economicPower == 0 && Ledger.ValidStats(r.stats)
      && |r.logs| == 1 && r.logs[0].kind == System && r.logs[0].timestamp == YearOnly(1)
      && |r.currentChoices| == 2
      && r.view == InGame && !r.isProcessing && !r.gameOver
  {
  }

  // ---------------------------------------------------------- save, load

  /** The record a save file holds once decoded: every field may be absent. */
  datatype SaveDoc = SaveDoc(
    stats: Option<KingdomStats>,
    logs: Option<seq<GameLog>>,
    gameOver: Option<bool>,
    lastChange: Option<StatsDelta>,
    settings: Option<GameSettings>,
    worldInfo: Option<WorldInfo>,
    heritage: Option<KingdomHeritage>,
    activeBuffs: Option<seq<KingdomBuff>>,
    currentChoices: Option<seq<SuggestedAction>>)

  /** `saveGame`'s bundle. */
  function SaveBundle(s: Session): SaveDoc {
    SaveDoc(Some(s.stats), Some(s.logs), Some(s.gameOver), s.lastChange, Some(s.settings),
            Some(s.worldInfo), Some(s.heritage), Some(s.activeBuffs), Some(s.currentChoices))
  }

  /** `handleFileUpload` after reading: `None` is text that does not parse.
      A file without stats, logs or settings is refused and the session is
      left as it was; otherwise every field is taken from the file, the
      optional ones with their defaults, and the game screen is shown. */
  function LoadFile(s: Session, parsed: Option<SaveDoc>): Session {
    if parsed.None? then s
    else
      var d := parsed.value;
      if d.stats.None? || d.logs.None? || d.settings.None? then s
      else s.(
        stats := d.stats.value,
        logs := d.logs.value,
        gameOver := d.gameOver.GetOr(false),
        lastChange := d.lastChange,
        settings := d.settings.value,
        worldInfo := d.worldInfo.GetOr(INITIAL_WORLD_INFO),
        heritage := d.heritage.GetOr(INITIAL_HERITAGE),
        activeBuffs := d.activeBuffs.GetOr([]),
        currentChoices := d.currentChoices.GetOr([]),
        view := InGame)
  }

  /** A file is accepted exactly when it parses and has stats, logs and
      settings; a refused file changes nothing. */
  lemma LoadValidation(s: Session, parsed: Option<SaveDoc>)
    ensures var ok := parsed.Some? && parsed.value.stats.Some? && parsed.value.logs.Some? && parsed.value.settings.Some?;
      && (!ok ==> LoadFile(s, parsed) == s)
      && (ok ==> LoadFile(s, parsed).view == InGame && LoadFile(s, parsed).stats == parsed.value.stats.value
                 && LoadFile(s, parsed).logs == parsed.value.logs.value)
  {
  }

  /** Missing optional parts load as a running game with an empty world,
      house, buff list and choice list. */
  lemma LoadDefaults(s: Session, st: KingdomStats, logs: seq<GameLog>, settings: GameSettings)
    ensures var r := LoadFile(s, Some(SaveDoc(Some(st), Some(logs), None, None, Some(settings), None, None, None, None)));
      && !r.gameOver && r.lastChange.None?
      && r.worldInfo == INITIAL_WORLD_INFO && r.heritage == INITIAL_HERITAGE
      && r.activeBuffs == [] && r.currentChoices == []
  {
  }

  /** Saving then loading restores every saved part of the session and
      shows the game; only the pending flag is the loading session's own. */
  lemma SaveLoadRoundTrip(s: Session, t: Session)
    ensures LoadFile(t, Some(SaveBundle(s))) == s.(view := InGame, isProcessing := t.isProcessing)
  {
  }

  /** `kingdom_<name>_Y<year>_M<month>.json`. */
  function SaveFileName(s: Session): string {
    "kingdom_" + Text.SanitizeName(s.settings.kingdomName)
      + "_Y" + Text.IntToDecimal(s.stats.year) + "_M" + Text.IntToDecimal(s.stats.month) + ".json"
  }

  /** The file name is the sanitised kingdom name, one safe character per
      character of the name, followed by the year and month in decimal,
      which read back as the calendar of the save, whatever their sign. */
  lemma SaveFileNameSpec(s: Session)
    ensures var name := Text.SanitizeName(s.settings.kingdomName);
      var y := Text.IntToDecimal(s.stats.year);
      var m := Text.IntToDecimal(s.stats.month);
      && SaveFileName(s) == "kingdom_" + name + "_Y" + y + "_M" + m + ".json"
      && |name| == |s.settings.kingdomName|
      && (forall i :: 0 <= i < |name| ==> Text.IsSafeNameChar(name[i]))
      && Text.IsIntText(y) && Text.IntValue(y) == s.stats.year
      && Text.IsIntText(m) && Text.IntValue(m) == s.stats.month
  {
    Text.SanitizeNameSpec(s.settings.kingdomName);
    Text.IntToDecimalRoundTrip(s.stats.year);
    Text.IntToDecimalRoundTrip(s.stats.month);
  }

  /** The default kingdom name sanitises to `v__ng_qu_c`: each non-ASCII
      letter and the space become `_`. */
  lemma DefaultKingdomFileName()
    ensures Text.SanitizeName(DEFAULT_SETTINGS.kingdomName) == "v__ng_qu_c"
  {
  }

  // ---------------------------------------------------------------- exit

  /** `exitToMenu`: show the menu and keep everything else. */
  function ExitToMenu(s: Session): (r: Session)
    ensures r.view == Menu
    ensures r.(view := s.view) == s
  {
    s.(view := Menu)
  }

  /** Leaving for the menu keeps the game, so saving from the menu writes the
      same file as saving before leaving. */
  lemma ExitKeepsGame(s: Session)
    ensures SaveBundle(ExitToMenu(s)) == SaveBundle(s)
    ensures SaveFileName(ExitToMenu(s)) == SaveFileName(s)
  {
  }
}

=== FILE: map_view.dfy ===
/**
 The world map panel (`components/MapModal.tsx`): what colour and name a
 grid cell shows, and the legend beside the grid. A cell holds `~` for
 sea, `P` for the player, or an entity id. A vassal (an entity with a
 non-empty `liegeId`) is drawn in stripes of its own colour and its
 liege's; the liege is looked up one level deep only.
 */
module MapView {
  import opened Types
  import opened Keyed

  const OCEAN_ID: string := "~"
  const PLAYER_ID: string := "P"

  const OCEAN_COLOR: string := "#172554"
  const PLAYER_COLOR: string := "#d97706"
  const MISSING_LIEGE_COLOR: string := "#333"
  const MISSING_LIEGE_NAME: string := "Unknown"

  const OCEAN_NAME: string := "Đại dương sâu thẳm"
  const UNCHARTED_NAME: string := "Vùng đất bí ẩn"
  const PLAYER_SUFFIX: string := " (Bạn)"
  const VASSAL_OF: string := " - Chư hầu của "

  /** `if (entity.liegeId)`: present and not the empty string. */
  predicate IsVassal(e: WorldEntity) {
    e.liegeId.Some? && e.liegeId.value != ""
  }

  datatype Liege = Liege(color: string, name: string)

  /** The liege of a vassal: the player for `P`, else the first entity with
      the id (its name, or "Unknown" when empty), else a grey "Unknown". */
  function ResolveLiege(entities: seq<WorldEntity>, kingdomName: string, liegeId: string): (l: Liege)
    ensures liegeId == PLAYER_ID ==> l == Liege(PLAYER_COLOR, kingdomName)
    ensures liegeId != PLAYER_ID && Find(entities, EntityKey, liegeId).Some? ==>
      var found := Find(entities, EntityKey, liegeId).value;
      l == Liege(found.color, if found.name != "" then found.name else MISSING_LIEGE_NAME)
    ensures liegeId != PLAYER_ID && !HasId(entities, EntityKey, liegeId) ==>
      l == Liege(MISSING_LIEGE_COLOR, MISSING_LIEGE_NAME)
  {
    if liegeId == PLAYER_ID then Liege(PLAYER_COLOR, kingdomName)
    else match Find(entities, EntityKey, liegeId)
      case Some(found) => Liege(found.color, if found.name != "" then found.name else MISSING_LIEGE_NAME)
      case None => Liege(MISSING_LIEGE_COLOR, MISSING_LIEGE_NAME)
  }

  /** A cell's swatch: one colour, or the vassal stripes. */
  datatype Swatch = Solid(color: string) | Striped(own: string, liege: string, liegeName: string)

  /** `getCellVisuals`. */
  function CellVisuals(info: WorldInfo, kingdomName: string, id: string): Swatch {
    if id == OCEAN_ID then Solid(OCEAN_COLOR)
    else if id == PLAYER_ID then Solid(PLAYER_COLOR)
    else match Find(info.entities, EntityKey, id)
      case None => Solid(OCEAN_COLOR)
      case Some(e) => EntitySwatch(info, kingdomName, e)
  }

  /** The swatch of one entity, as the cells and the legend both draw it. */
  function EntitySwatch(info: WorldInfo, kingdomName: string, e: WorldEntity): Swatch {
    if IsVassal(e) then
      var l := ResolveLiege(info.entities, kingdomName, e.liegeId.value);
      Striped(e.color, l.color, l.name)
    else Solid(e.color)
  }

  function EntityTypeText(t: EntityType): string {
    match t
    case Kingdom => "Kingdom"
    case Empire => "Empire"
    case Tribe => "Tribe"
    case CityState => "City-State"
    case Organization => "Organization"
  }

  function RelationText(r: Relation): string {
    match r
    case Hostile => "Hostile"
    case Neutral => "Neutral"
    case Friendly => "Friendly"
    case Ally => "Ally"
    case UnknownRelation => "Unknown"
  }

  /** `getCellName`. */
  function CellName(info: WorldInfo, kingdomName: string, id: string): string {
    if id == OCEAN_ID then OCEAN_NAME
    else if id == PLAYER_ID then kingdomName + PLAYER_SUFFIX
    else match Find(info.entities, EntityKey, id)
      case None => UNCHARTED_NAME
      case Some(e) =>
        var name := e.name + " (" + EntityTypeText(e.entityType) + ")";
        if IsVassal(e) then name + VASSAL_OF + ResolveLiege(info.entities, kingdomName, e.liegeId.value).name
        else name
  }

  /** One row of the legend: the entity's swatch and the line under its name. */
  datatype LegendEntry = LegendEntry(swatch: Swatch, subText: string)

  function Legend(info: WorldInfo, kingdomName: string, e: WorldEntity): LegendEntry {
    if IsVassal(e) then
      var l := ResolveLiege(info.entities, kingdomName, e.liegeId.value);
      LegendEntry(Striped(e.color, l.color, l.name), "Chư hầu của " + l.name)
    else
      LegendEntry(Solid(e.color), EntityTypeText(e.entityType) + " • " + RelationText(e.relation))
  }

  // --------------------------------------------------------------- lemmas

  /** `~` is always sea and `P` always the player, whatever the entity
      list holds: an entity with one of those ids is never drawn. */
  lemma ReservedIdsShadowEntities(info: WorldInfo, kingdomName: string)
    ensures CellVisuals(info, kingdomName, OCEAN_ID) == Solid(OCEAN_COLOR)
    ensures CellName(info, kingdomName, OCEAN_ID) == OCEAN_NAME
    ensures CellVisuals(info, kingdomName, PLAYER_ID) == Solid(PLAYER_COLOR)
    ensures CellName(info, kingdomName, PLAYER_ID) == kingdomName + PLAYER_SUFFIX
  {
  }

  /** An id no entity carries is drawn as sea and named as uncharted land. */
  lemma UnknownIdIsUncharted(info: WorldInfo, kingdomName: string, id: string)
    requires id != OCEAN_ID && id != PLAYER_ID
    requires !HasId(info.entities, EntityKey, id)
    ensures CellVisuals(info, kingdomName, id) == Solid(OCEAN_COLOR)
    ensures CellName(info, kingdomName, id) == UNCHARTED_NAME
  {
  }

  /** A cell is striped exactly when the entity it shows is a vassal; an
      entity that is not is drawn in its own colour and named without a
      liege. */
  lemma VassalIffStriped(info: WorldInfo, kingdomName: string, id: string)
    requires id != OCEAN_ID && id != PLAYER_ID
    requires HasId(info.entities, EntityKey, id)
    ensures var e := Find(info.entities, EntityKey, id).value;
      && (CellVisuals(info, kingdomName, id).Striped? <==> IsVassal(e))
      && (!IsVassal(e) ==>
            (CellVisuals(info, kingdomName, id) == Solid(e.color)
             && CellName(info, kingdomName, id) == e.name + " (" + EntityTypeText(e.entityType) + ")"))
      && (IsVassal(e) ==> CellVisuals(info, kingdomName, id).own == e.color)
  {
  }

  /** In any world, an entity that the map draws for its id and whose liege
      is itself resolves in one lookup: its stripes use its own colour twice
      and it is its own liege. */
  lemma SelfLiegeResolves(info: WorldInfo, kingdomName: string, a: WorldEntity)
    requires Find(info.entities, EntityKey, a.id) == Some(a)
    requires a.id != PLAYER_ID && a.id != "" && a.name != ""
    requires a.liegeId == Some(a.id)
    ensures EntitySwatch(info, kingdomName, a) == Striped(a.color, a.color, a.name)
  {
  }

  /** In any world, two entities that the map draws for their ids and that
      are each other's liege resolve in one lookup each: each is striped
      with the other's colour, and neither lookup follows the cycle
      further. */
  lemma MutualLiegesResolve(info: WorldInfo, kingdomName: string, a: WorldEntity, b: WorldEntity)
    requires Find(info.entities, EntityKey, a.id) == Some(a)
    requires Find(info.entities, EntityKey, b.id) == Some(b)
    requires a.id != b.id && a.id != PLAYER_ID && b.id != PLAYER_ID
    requires a.liegeId == Some(b.id) && b.liegeId == Some(a.id)
    requires a.id != "" && b.id != "" && a.name != "" && b.name != ""
    ensures EntitySwatch(info, kingdomName, a) == Striped(a.color, b.color, b.name)
    ensures EntitySwatch(info, kingdomName, b) == Striped(b.color, a.color, a.name)
  {
  }

  /** The legend draws every entity the map draws the same way, with the
      same liege; the map shows an entity when it is the first with its id. */
  lemma LegendMatchesMap(info: WorldInfo, kingdomName: string, e: WorldEntity)
    requires e.id != OCEAN_ID && e.id != PLAYER_ID
    requires Find(info.entities, EntityKey, e.id) == Some(e)
    ensures Legend(info, kingdomName, e).swatch == CellVisuals(info, kingdomName, e.id)
    ensures IsVassal(e) ==>
      CellName(info, kingdomName, e.id) ==
        e.name + " (" + EntityTypeText(e.entityType) + ")" + VASSAL_OF + Legend(info, kingdomName, e).swatch.liegeName
  {
  }
}

=== FILE: politics_view.dfy ===
/**
 The genealogy tab of the politics panel (`components/PoliticsModal.tsx`):
 the royal family sorted into groups by `familyRelation`, and the card
 style that marks the dead.
 */
module PoliticsView {
  import opened Types

  /** The members whose relation is exactly `rel`, in family order
      (`family.filter(p => p.familyRelation === rel)`). */
  function WithRelation(family: seq<Person>, rel: FamilyRelation): (r: seq<Person>)
    ensures |r| <= |family|
    ensures forall p :: p in r <==> p in family && p.familyRelation == Some(rel)
  {
    if |family| == 0 then []
    else
      var rest := WithRelation(family[1..], rel);
      if family[0].familyRelation == Some(rel) then [family[0]] + rest else rest
  }

  /** The relations that have a group of their own. */
  predicate Grouped(rel: Option<FamilyRelation>) {
    rel == Some(Parent) || rel == Some(Sibling) || rel == Some(Self) || rel == Some(Spouse) || rel == Some(Child)
  }

  /** The members outside the named groups: relation `Relative`, `None`, or
      none at all (`!list.includes(p.familyRelation || '')`). */
  function Others(family: seq<Person>): (r: seq<Person>)
    ensures |r| <= |family|
  {
    if |family| == 0 then []
    else
      var rest := Others(family[1..]);
      if Grouped(family[0].familyRelation) then rest else [family[0]] + rest
  }

  /** The others are exactly the members whose relation has no group. */
  lemma {:induction false} OthersMembers(family: seq<Person>, p: Person)
    ensures p in Others(family) <==> p in family && !Grouped(p.familyRelation)
    decreases |family|
  {
    if |family| > 0 {
      OthersMembers(family[1..], p);
      assert family == [family[0]] + family[1..];
    }
  }

  /** `family.find(p => p.familyRelation === 'Self')`. */
  function FirstSelf(family: seq<Person>): (r: Option<Person>)
    ensures r.Some? <==> exists p :: p in family && p.familyRelation == Some(Self)
    ensures r.Some? ==> r.value in family && r.value.familyRelation == Some(Self)
  {
    if |family| == 0 then None
    else if family[0].familyRelation == Some(Self) then Some(family[0])
    else FirstSelf(family[1..])
  }

  datatype FamilyGroups = FamilyGroups(
    parents: seq<Person>,
    siblings: seq<Person>,
    self: Option<Person>,
    spouses: seq<Person>,
    children: seq<Person>,
    others: seq<Person>)

  /** `getFamilyGroups`. */
  function GetFamilyGroups(family: seq<Person>): FamilyGroups {
    FamilyGroups(
      WithRelation(family, Parent),
      WithRelation(family, Sibling),
      FirstSelf(family),
      WithRelation(family, Spouse),
      WithRelation(family, Child),
      Others(family))
  }

  /** The self is the first member tagged `Self`: every member before it
      carries another relation. */
  lemma {:induction false} SelfIsFirst(family: seq<Person>)
    requires FirstSelf(family).Some?
    ensures exists i :: (0 <= i < |family| && family[i] == FirstSelf(family).value
      && forall j :: 0 <= j < i ==> family[j].familyRelation != Some(Self))
    decreases |family|
  {
    if family[0].familyRelation != Some(Self) {
      SelfIsFirst(family[1..]);
      var i :| 0 <= i < |family[1..]| && family[1..][i] == FirstSelf(family).value
        && forall j :: 0 <= j < i ==> family[1..][j].familyRelation != Some(Self);
      assert family[i + 1] == family[1..][i];
      forall j | 0 <= j < i + 1 ensures family[j].familyRelation != Some(Self) {
        if j > 0 {
          assert family[j] == family[1..][j - 1];
        }
      }
    } else {
      assert family[0] == FirstSelf(family).value;
    }
  }

  /** Each group keeps family order: grouping a family made of two parts
      groups each part and puts the first part's members first. */
  lemma {:induction false} WithRelationKeepsOrder(a: seq<Person>, b: seq<Person>, rel: FamilyRelation)
    ensures WithRelation(a + b, rel) == WithRelation(a, rel) + WithRelation(b, rel)
    decreases |a|
  {
    if |a| == 0 {
      assert a + b == b;
    } else {
      var ab := a + b;
      assert ab[0] == a[0];
      assert ab[1..] == a[1..] + b;
      WithRelationKeepsOrder(a[1..], b, rel);
      var head := if a[0].familyRelation == Some(rel) then [a[0]] else [];
      assert WithRelation(ab, rel) == head + WithRelation(ab[1..], rel);
      assert WithRelation(a, rel) == head + WithRelation(a[1..], rel);
    }
  }

  /** The others keep family order in the same way. */
  lemma {:induction false} OthersKeepOrder(a: seq<Person>, b: seq<Person>)
    ensures Others(a + b) == Others(a) + Others(b)
    decreases |a|
  {
    if |a| == 0 {
      assert a + b == b;
    } else {
      var x, t := a[0], a[1..];
      OthersKeepOrder(t, b);
      assert a == [x] + t;
      assert a + b == [x] + (t + b);
      OthersCons(x, t);
      OthersCons(x, t + b);
      var head := if Grouped(x.familyRelation) then [] else [x];
      AppendAssoc(head, Others(t), Others(b));
    }
  }

  /** Helper for `OthersKeepOrder`: regrouping a concatenation. */
  lemma AppendAssoc(p: seq<Person>, q: seq<Person>, r: seq<Person>)
    ensures p + (q + r) == (p + q) + r
  {
  }

  /** Helper for `OthersKeepOrder`: one step of `Others`. */
  lemma OthersCons(x: Person, t: seq<Person>)
    ensures Others([x] + t) == (if Grouped(x.familyRelation) then [] else [x]) + Others(t)
  {
    assert ([x] + t)[0] == x;
    assert ([x] + t)[1..] == t;
  }

  /** One step of `WithRelation`: the head joins the group when it carries
      the relation. */
  lemma WithRelationStep(family: seq<Person>, rel: FamilyRelation)
    requires |family| > 0
    ensures multiset(WithRelation(family, rel)) ==
      multiset(WithRelation(family[1..], rel))
      + (if family[0].familyRelation == Some(rel) then multiset{family[0]} else multiset{})
  {
    var rest := WithRelation(family[1..], rel);
    if family[0].familyRelation == Some(rel) {
      assert WithRelation(family, rel) == [family[0]] + rest;
    }
  }

  lemma OthersStep(family: seq<Person>)
    requires |family| > 0
    ensures multiset(Others(family)) ==
      multiset(Others(family[1..]))
      + (if !Grouped(family[0].familyRelation) then multiset{family[0]} else multiset{})
  {
    var rest := Others(family[1..]);
    if !Grouped(family[0].familyRelation) {
      assert Others(family) == [family[0]] + rest;
    }
  }

  /** Every member lands in exactly one list, except that the members
      tagged `Self` share the single self slot: counted with multiplicity,
      the four relation groups, the others and the Self members make up the
      family. */
  lemma {:induction false} GroupsPartition(family: seq<Person>)
    ensures multiset(WithRelation(family, Parent)) + multiset(WithRelation(family, Sibling))
      + multiset(WithRelation(family, Spouse)) + multiset(WithRelation(family, Child))
      + multiset(WithRelation(family, Self)) + multiset(Others(family)) == multiset(family)
    decreases |family|
  {
    if |family| > 0 {
      var x, t := family[0], family[1..];
      GroupsPartition(t);
      assert multiset(family) == multiset{x} + multiset(t) by {
        assert family == [x] + t;
      }
      WithRelationStep(family, Parent);
      WithRelationStep(family, Sibling);
      WithRelationStep(family, Spouse);
      WithRelationStep(family, Child);
      WithRelationStep(family, Self);
      OthersStep(family);
    }
  }

  /** A second member tagged `Self` appears in no group: not in the self
      slot, not among the others, not in any relation list. */
  lemma SecondSelfIsHidden(family: seq<Person>, p: Person)
    requires p in family && p.familyRelation == Some(Self)
    requires FirstSelf(family).Some? && FirstSelf(family).value != p
    ensures var g := GetFamilyGroups(family);
      p !in g.parents && p !in g.siblings && p !in g.spouses && p !in g.children && p !in g.others
  {
    OthersMembers(family, p);
  }

  /** A person's status is not looked at when grouping: marking one member
      dead or missing moves nobody to another group. */
  lemma GroupsIgnoreStatus(family: seq<Person>, i: int, status: PersonStatus, rel: FamilyRelation)
    requires 0 <= i < |family|
    ensures |WithRelation(family[i := family[i].(status := status)], rel)| == |WithRelation(family, rel)|
    ensures |Others(family[i := family[i].(status := status)])| == |Others(family)|
    ensures FirstSelf(family[i := family[i].(status := status)]).Some? == FirstSelf(family).Some?
  {
    WithRelationIgnoresStatus(family, i, status, rel);
    OthersIgnoreStatus(family, i, status);
    FirstSelfIgnoresStatus(family, i, status);
  }

  lemma {:induction false} WithRelationIgnoresStatus(family: seq<Person>, i: int, status: PersonStatus, rel: FamilyRelation)
    requires 0 <= i < |family|
    ensures |WithRelation(family[i := family[i].(status := status)], rel)| == |WithRelation(family, rel)|
    decreases |family|
  {
    var marked := family[i := family[i].(status := status)];
    assert marked[0].familyRelation == family[0].familyRelation;
    if i == 0 {
      assert marked[1..] == family[1..];
    } else {
      var tail := family[1..];
      WithRelationIgnoresStatus(tail, i - 1, status, rel);
      assert marked[1..] == tail[i - 1 := tail[i - 1].(status := status)];
    }
  }

  lemma {:induction false} OthersIgnoreStatus(family: seq<Person>, i: int, status: PersonStatus)
    requires 0 <= i < |family|
    ensures |Others(family[i := family[i].(status := status)])| == |Others(family)|
    decreases |family|
  {
    var marked := family[i := family[i].(status := status)];
    if i == 0 {
      assert marked[1..] == family[1..];
    } else {
      var tail := family[1..];
      OthersIgnoreStatus(tail, i - 1, status);
      assert marked[1..] == tail[i - 1 := tail[i - 1].(status := status)];
    }
  }

  lemma {:induction false} FirstSelfIgnoresStatus(family: seq<Person>, i: int, status: PersonStatus)
    requires 0 <= i < |family|
    ensures FirstSelf(family[i := family[i].(status := status)]).Some? == FirstSelf(family).Some?
    decreases |family|
  {
    var marked := family[i := family[i].(status := status)];
    if i == 0 {
      assert marked[1..] == family[1..];
    } else {
      var tail := family[1..];
      FirstSelfIgnoresStatus(tail, i - 1, status);
      assert marked[1..] == tail[i - 1 := tail[i - 1].(status := status)];
    }
  }

  const DEAD_CARD: string := "bg-neutral-800 border-neutral-700 opacity-70 grayscale"
  const MAIN_CARD: string := "bg-amber-900/40 border-amber-500 ring-1 ring-amber-500/50"
  const PLAIN_CARD: string := "bg-neutral-800 border-neutral-600"

  /** The card colours of `renderPersonCard`: death takes precedence over
      being the ruler. */
  function CardStyle(p: Person, isMain: bool): (c: string)
    ensures p.status == Dead ==> c == DEAD_CARD
    ensures p.status != Dead && isMain ==> c == MAIN_CARD
    ensures p.status != Dead && !isMain ==> c == PLAIN_CARD
  {
    if p.status == Dead then DEAD_CARD else if isMain then MAIN_CARD else PLAIN_CARD
  }

  /** The coffin badge marks exactly the dead. */
  predicate ShowsCoffin(p: Person) {
    p.status == Dead
  }
}

=== FILE: reconcile.dfy ===
/**
 The entity reconcilers of `App.tsx`: each folds one optional part of a turn
 result into the collection it updates and returns the new collection.
 Entities are upserted by id, people appended, rumors resolved and then
 inserted when their id is new, family members and divisions appended and
 then replaced by id, and buffs filtered by id and then inserted when new.
 */
module Reconcile {
  import opened Types
  import opened Keyed

  // -------------------------------------------------------------- rumors

  /** The rumors still open (`rumors.filter(r => !r.isResolved)`). */
  function Unresolved(rumors: seq<Rumor>): (r: seq<Rumor>)
    ensures |r| <= |rumors|
    ensures forall x :: x in r <==> x in rumors && !x.isResolved
  {
    if |rumors| == 0 then []
    else if rumors[0].isResolved then Unresolved(rumors[1..])
    else [rumors[0]] + Unresolved(rumors[1..])
  }

  /** The rumors already resolved (`rumors.filter(r => r.isResolved)`). */
  function ResolvedOnes(rumors: seq<Rumor>): (r: seq<Rumor>)
    ensures |r| <= |rumors|
    ensures forall x :: x in r <==> x in rumors && x.isResolved
  {
    if |rumors| == 0 then []
    else if rumors[0].isResolved then [rumors[0]] + ResolvedOnes(rumors[1..])
    else ResolvedOnes(rumors[1..])
  }

  /** Every rumor is either open or resolved, never both, and none is lost. */
  lemma {:induction false} RumorsPartition(rumors: seq<Rumor>)
    ensures multiset(Unresolved(rumors)) + multiset(ResolvedOnes(rumors)) == multiset(rumors)
    ensures |Unresolved(rumors)| + |ResolvedOnes(rumors)| == |rumors|
    decreases |rumors|
  {
    if |rumors| > 0 {
      RumorsPartition(rumors[1..]);
      assert rumors == [rumors[0]] + rumors[1..];
    }
  }

  /** The resolved list keeps stored order: for a list made of two parts it
      is the first part's resolved rumors followed by the second's. */
  lemma {:induction false} ResolvedOnesKeepsOrder(a: seq<Rumor>, b: seq<Rumor>)
    ensures ResolvedOnes(a + b) == ResolvedOnes(a) + ResolvedOnes(b)
    decreases |a|
  {
    if |a| == 0 {
      assert a + b == b;
    } else {
      var ab := a + b;
      assert ab[0] == a[0];
      assert ab[1..] == a[1..] + b;
      ResolvedOnesKeepsOrder(a[1..], b);
    }
  }

  /** `rumors.map(r => ids.includes(r.id) ? { ...r, isResolved: true } : r)`. */
  function ResolveRumors(rumors: seq<Rumor>, ids: seq<string>): seq<Rumor>
  {
    seq(|rumors|, i requires 0 <= i < |rumors| =>
      if rumors[i].id in ids then rumors[i].(isResolved := true) else rumors[i])
  }

  // ---------------------------------------------------------- world info

  /** `handleWorldUpdate`. */
  function ApplyWorldUpdate(info: WorldInfo, u: WorldUpdate): WorldInfo
  {
    var entities :=
      if u.newEntities.Some? then UpsertAll(info.entities, EntityKey, u.newEntities.value)
      else info.entities;
    var people :=
      if u.newPeople.Some? then info.people + u.newPeople.value else info.people;
    var resolved :=
      if u.resolvedRumorIds.Some? && |u.resolvedRumorIds.value| > 0
      then ResolveRumors(info.rumors, u.resolvedRumorIds.value)
      else info.rumors;
    var rumors :=
      if u.newRumors.Some? then InsertAllAbsent(resolved, RumorKey, u.newRumors.value)
      else resolved;
    WorldInfo(entities, people, rumors)
  }

  /** Entities are upserted by id: looked up by id, the world answers with
      the last delivered entity for every id the update names and with the
      old entity otherwise; no id is lost; unique ids stay unique; and
      delivering the same entities twice is the same as delivering them once. */
  lemma WorldUpdateEntities(info: WorldInfo, u: WorldUpdate, id: string)
    requires u.newEntities.Some?
    ensures Find(ApplyWorldUpdate(info, u).entities, EntityKey, id) ==
      OrElse(FindLast(u.newEntities.value, EntityKey, id), Find(info.entities, EntityKey, id))
    ensures HasId(info.entities, EntityKey, id) ==> HasId(ApplyWorldUpdate(info, u).entities, EntityKey, id)
    ensures UniqueIds(info.entities, EntityKey) ==> UniqueIds(ApplyWorldUpdate(info, u).entities, EntityKey)
    ensures ApplyWorldUpdate(ApplyWorldUpdate(info, u), u).entities == ApplyWorldUpdate(info, u).entities
  {
    var news := u.newEntities.value;
    UpsertAllFind(info.entities, EntityKey, news, id);
    UpsertAllShape(info.entities, EntityKey, news);
    if HasId(info.entities, EntityKey, id) {
      var i :| 0 <= i < |info.entities| && EntityKey(info.entities[i]) == id;
      assert EntityKey(ApplyWorldUpdate(info, u).entities[i]) == id;
    }
    if UniqueIds(info.entities, EntityKey) {
      UpsertAllKeepsUnique(info.entities, EntityKey, news);
    }
    UpsertAllIdempotent(info.entities, EntityKey, news);
  }

  /** People are appended, never merged: the list grows by exactly the
      delivered people, so delivering them twice lists them twice. */
  lemma WorldUpdatePeople(info: WorldInfo, u: WorldUpdate)
    ensures ApplyWorldUpdate(info, u).people == info.people + u.newPeople.GetOr([])
    ensures |ApplyWorldUpdate(ApplyWorldUpdate(info, u), u).people| == |info.people| + 2 * |u.newPeople.GetOr([])|
  {
  }

  /** Rumors: an existing rumor keeps its place and every field except
      `isResolved`, which only ever becomes true, and does so exactly for the
      listed ids; every delivered rumor's id ends up present; only delivered
      rumors are added; unique ids stay unique. */
  lemma {:induction false} WorldUpdateRumors(info: WorldInfo, u: WorldUpdate)
    ensures |info.rumors| <= |ApplyWorldUpdate(info, u).rumors|
    ensures forall i :: 0 <= i < |info.rumors| ==>
      ApplyWorldUpdate(info, u).rumors[i] ==
        info.rumors[i].(isResolved := info.rumors[i].isResolved || info.rumors[i].id in u.resolvedRumorIds.GetOr([]))
    ensures forall j :: |info.rumors| <= j < |ApplyWorldUpdate(info, u).rumors| ==>
      ApplyWorldUpdate(info, u).rumors[j] in u.newRumors.GetOr([])
    ensures forall n :: n in u.newRumors.GetOr([]) ==> HasId(ApplyWorldUpdate(info, u).rumors, RumorKey, n.id)
    ensures UniqueIds(info.rumors, RumorKey) ==> UniqueIds(ApplyWorldUpdate(info, u).rumors, RumorKey)
  {
    var ids := u.resolvedRumorIds.GetOr([]);
    var resolved :=
      if u.resolvedRumorIds.Some? && |ids| > 0 then ResolveRumors(info.rumors, ids) else info.rumors;
    assert forall i :: 0 <= i < |info.rumors| ==>
      resolved[i] == info.rumors[i].(isResolved := info.rumors[i].isResolved || info.rumors[i].id in ids);
    assert SameKeys(resolved, info.rumors, RumorKey);
    var r := ApplyWorldUpdate(info, u).rumors;
    InsertAllAbsentSpec(resolved, RumorKey, u.newRumors.GetOr([]));
    if u.newRumors.Some? {
      assert r[..|resolved|] == resolved;
      forall i | 0 <= i < |info.rumors| ensures r[i] == resolved[i] {
        assert r[i] == r[..|resolved|][i];
      }
    }
    if UniqueIds(info.rumors, RumorKey) {
      assert UniqueIds(resolved, RumorKey);
    }
  }

  /** Delivered rumors never overwrite: an id the world already knew is
      not touched by the insertion, a new id finds the first delivered rumor
      with it, and new rumors are appended in the order the update first
      delivers their ids. */
  lemma WorldUpdateRumorsFirstWins(info: WorldInfo, u: WorldUpdate, id: string)
    ensures !HasId(info.rumors, RumorKey, id) ==>
      Find(ApplyWorldUpdate(info, u).rumors, RumorKey, id) == Find(u.newRumors.GetOr([]), RumorKey, id)
    ensures forall j :: |info.rumors| <= j < |ApplyWorldUpdate(info, u).rumors| ==>
      var x := ApplyWorldUpdate(info, u).rumors[j];
      !HasId(info.rumors, RumorKey, x.id) && Find(u.newRumors.GetOr([]), RumorKey, x.id) == Some(x)
    ensures forall j, k :: |info.rumors| <= j < k < |ApplyWorldUpdate(info, u).rumors| ==>
      IndexOf(u.newRumors.GetOr([]), RumorKey, ApplyWorldUpdate(info, u).rumors[j].id)
        < IndexOf(u.newRumors.GetOr([]), RumorKey, ApplyWorldUpdate(info, u).rumors[k].id)
  {
    var ids := u.resolvedRumorIds.GetOr([]);
    var news := u.newRumors.GetOr([]);
    var resolved :=
      if u.resolvedRumorIds.Some? && |ids| > 0 then ResolveRumors(info.rumors, ids) else info.rumors;
    assert SameKeys(resolved, info.rumors, RumorKey);
    assert ApplyWorldUpdate(info, u).rumors == InsertAllAbsent(resolved, RumorKey, news);
    SameKeysHasId(resolved, info.rumors, RumorKey, id);
    InsertAllAbsentFind(resolved, RumorKey, news, id);
    if !HasId(resolved, RumorKey, id) {
      assert IndexOf(resolved, RumorKey, id) == -1;
    }
    InsertAllAbsentFresh(resolved, RumorKey, news);
    InsertAllAbsentOrder(resolved, RumorKey, news);
    forall x: Rumor ensures HasId(resolved, RumorKey, x.id) <==> HasId(info.rumors, RumorKey, x.id) {
      SameKeysHasId(resolved, info.rumors, RumorKey, x.id);
    }
  }

  /** A rumor, once resolved, stays resolved under every later update. */
  lemma ResolutionIsOneWay(info: WorldInfo, u: WorldUpdate, i: int)
    requires 0 <= i < |info.rumors| && info.rumors[i].isResolved
    ensures i < |ApplyWorldUpdate(info, u).rumors|
      && ApplyWorldUpdate(info, u).rumors[i].isResolved
      && ApplyWorldUpdate(info, u).rumors[i].id == info.rumors[i].id
  {
    WorldUpdateRumors(info, u);
  }

  /** An update without any field leaves the world as it was. */
  lemma EmptyWorldUpdate(info: WorldInfo)
    ensures ApplyWorldUpdate(info, WorldUpdate(None, None, None, None)) == info
  {
  }

  // ------------------------------------------------------------ heritage

  /** `handlePoliticalUpdate`. */
  function ApplyPoliticalUpdate(h: KingdomHeritage, u: PoliticalUpdate): KingdomHeritage
  {
    var family :=
      if u.newFamilyMembers.Some? then h.royalFamily + u.newFamilyMembers.value else h.royalFamily;
    var family' :=
      if u.updatedFamilyMembers.Some? then ReplaceAll(family, PersonKey, u.updatedFamilyMembers.value)
      else family;
    var divisions :=
      if u.newDivisions.Some? then h.divisions + u.newDivisions.value else h.divisions;
    var divisions' :=
      if u.updatedDivisions.Some? then ReplaceAll(divisions, DivisionKey, u.updatedDivisions.value)
      else divisions;
    KingdomHeritage(family', divisions')
  }

  /** New family members and divisions are appended without any check of
      their ids, so each list grows by exactly the number delivered and its
      ids, position by position, are the old ones followed by the new ones;
      an updated member or division replaces the first one with its id
      (the last update for an id wins) and is ignored when no entry has it. */
  lemma PoliticalUpdateSpec(h: KingdomHeritage, u: PoliticalUpdate, id: string)
    ensures |ApplyPoliticalUpdate(h, u).royalFamily| == |h.royalFamily| + |u.newFamilyMembers.GetOr([])|
    ensures |ApplyPoliticalUpdate(h, u).divisions| == |h.divisions| + |u.newDivisions.GetOr([])|
    ensures SameKeys(ApplyPoliticalUpdate(h, u).royalFamily, h.royalFamily + u.newFamilyMembers.GetOr([]), PersonKey)
    ensures SameKeys(ApplyPoliticalUpdate(h, u).divisions, h.divisions + u.newDivisions.GetOr([]), DivisionKey)
    ensures Find(ApplyPoliticalUpdate(h, u).royalFamily, PersonKey, id) ==
      var appended := h.royalFamily + u.newFamilyMembers.GetOr([]);
      if HasId(appended, PersonKey, id)
      then OrElse(FindLast(u.updatedFamilyMembers.GetOr([]), PersonKey, id), Find(appended, PersonKey, id))
      else None
    ensures Find(ApplyPoliticalUpdate(h, u).divisions, DivisionKey, id) ==
      var appended := h.divisions + u.newDivisions.GetOr([]);
      if HasId(appended, DivisionKey, id)
      then OrElse(FindLast(u.updatedDivisions.GetOr([]), DivisionKey, id), Find(appended, DivisionKey, id))
      else None
  {
    var family := h.royalFamily + u.newFamilyMembers.GetOr([]);
    var divisions := h.divisions + u.newDivisions.GetOr([]);
    assert h.royalFamily + [] == h.royalFamily;
    assert h.divisions + [] == h.divisions;
    ReplaceAllSpec(family, PersonKey, u.updatedFamilyMembers.GetOr([]), id);
    ReplaceAllSpec(divisions, DivisionKey, u.updatedDivisions.GetOr([]), id);
  }

  // --------------------------------------------------------------- buffs

  /** `handleBuffsUpdate`. */
  function ApplyBuffsUpdate(buffs: seq<KingdomBuff>, u: BuffsUpdate): seq<KingdomBuff>
  {
    var kept :=
      if u.removedBuffIds.Some? then RemoveIds(buffs, BuffKey, u.removedBuffIds.value) else buffs;
    if u.newBuffs.Some? then InsertAllAbsent(kept, BuffKey, u.newBuffs.value) else kept
  }

  /** Removal runs before insertion: an id is active afterwards exactly when
      it was active and not removed, or it is delivered anew (so a buff
      removed and re-added in one update survives); unique ids stay unique;
      and delivering the same new buffs twice changes nothing further. */
  lemma BuffsUpdateSpec(buffs: seq<KingdomBuff>, u: BuffsUpdate, id: string)
    ensures HasId(ApplyBuffsUpdate(buffs, u), BuffKey, id) <==>
      (HasId(buffs, BuffKey, id) && id !in u.removedBuffIds.GetOr([])) || HasId(u.newBuffs.GetOr([]), BuffKey, id)
    ensures UniqueIds(buffs, BuffKey) ==> UniqueIds(ApplyBuffsUpdate(buffs, u), BuffKey)
    ensures u.removedBuffIds.None? ==>
      ApplyBuffsUpdate(ApplyBuffsUpdate(buffs, u), u) == ApplyBuffsUpdate(buffs, u)
  {
    var removed := u.removedBuffIds.GetOr([]);
    var news := u.newBuffs.GetOr([]);
    var kept := if u.removedBuffIds.Some? then RemoveIds(buffs, BuffKey, removed) else buffs;
    RemoveIdsSpec(buffs, BuffKey, removed);
    InsertAllAbsentSpec(kept, BuffKey, news);
    InsertAllAbsentHasId(kept, BuffKey, news, id);
    assert ApplyBuffsUpdate(buffs, u) == InsertAllAbsent(kept, BuffKey, news);
    if u.removedBuffIds.None? {
      InsertAllAbsentIdempotent(buffs, BuffKey, news);
    }
  }

  /** A buff that is removed and delivered again in the same update is
      active afterwards. */
  lemma RemovedAndReAddedSurvives(buffs: seq<KingdomBuff>, u: BuffsUpdate, b: KingdomBuff)
    requires b in u.newBuffs.GetOr([])
    ensures HasId(ApplyBuffsUpdate(buffs, u), BuffKey, b.id)
  {
    BuffsUpdateSpec(buffs, u, b.id);
    var news := u.newBuffs.GetOr([]);
    var k :| 0 <= k < |news| && news[k] == b;
    assert HasId(news, BuffKey, b.id);
  }

  /** Looked up by id, a buff update keeps the active record of every id it
      does not remove, never overwrites an active buff with a delivered one,
      and activates the first delivered buff of an id that is not active
      after removal. */
  lemma BuffsUpdateFind(buffs: seq<KingdomBuff>, u: BuffsUpdate, id: string)
    ensures Find(ApplyBuffsUpdate(buffs, u), BuffKey, id) ==
      OrElse(if id in u.removedBuffIds.GetOr([]) then None else Find(buffs, BuffKey, id),
             Find(u.newBuffs.GetOr([]), BuffKey, id))
  {
    var removed := u.removedBuffIds.GetOr([]);
    var news := u.newBuffs.GetOr([]);
    var kept := RemoveIds(buffs, BuffKey, removed);
    RemoveNoIds(buffs, BuffKey);
    assert ApplyBuffsUpdate(buffs, u) == InsertAllAbsent(kept, BuffKey, news);
    RemoveIdsFind(buffs, BuffKey, removed, id);
    InsertAllAbsentFind(kept, BuffKey, news, id);
  }

  /** The buffs that stay active keep their records, their order and their
      multiplicity, and come first; after them the delivered buffs with new
      ids follow in the order the update first delivers them. */
  lemma BuffsUpdateOrder(buffs: seq<KingdomBuff>, u: BuffsUpdate)
    ensures var kept := RemoveIds(buffs, BuffKey, u.removedBuffIds.GetOr([]));
      var r := ApplyBuffsUpdate(buffs, u);
      && |kept| <= |r| && r[..|kept|] == kept
      && (forall j :: |kept| <= j < |r| ==>
            !HasId(kept, BuffKey, r[j].id) && Find(u.newBuffs.GetOr([]), BuffKey, r[j].id) == Some(r[j]))
      && (forall j, k :: |kept| <= j < k < |r| ==>
            IndexOf(u.newBuffs.GetOr([]), BuffKey, r[j].id) < IndexOf(u.newBuffs.GetOr([]), BuffKey, r[k].id))
  {
    var removed := u.removedBuffIds.GetOr([]);
    var news := u.newBuffs.GetOr([]);
    var kept := RemoveIds(buffs, BuffKey, removed);
    RemoveNoIds(buffs, BuffKey);
    assert ApplyBuffsUpdate(buffs, u) == InsertAllAbsent(kept, BuffKey, news);
    InsertAllAbsentSpec(kept, BuffKey, news);
    InsertAllAbsentFresh(kept, BuffKey, news);
    InsertAllAbsentOrder(kept, BuffKey, news);
  }
}

=== FILE: service.dfy ===
/**
 The client-side pieces of `processGameTurn` (`services/geminiService.ts`)
 that do not depend on the generative model: what the request is built from
 (init detection, the open rumors, the history window) and what comes back
 when the call fails. The call itself is a parameter of the turn: a
 function from the request to the service's reply.
 */
module Service {
  import opened Types
  import Reconcile

  /** The action text of the first turn of a game. */
  const INIT_ACTION: string := "KHỞI TẠO"

  /** The longest history window the request carries. */
  const HISTORY_WINDOW: nat := 8

  /** What the service answered: a decoded turn result, a response without
      text, or a failure (a network error, or text that is not a result). */
  datatype ServiceReply = Parsed(result: TurnResult) | EmptyText | CallFailed

  /** The settings the initialization block quotes. */
  datatype InitBlock = InitBlock(background: string, leaderDescription: string, leaderName: string)

  /** The parts of one request the client decides; the prompt prose around
      them is fixed text. */
  datatype TurnRequest = TurnRequest(
    action: string,
    stats: KingdomStats,
    settings: GameSettings,
    entities: seq<WorldEntity>,
    buffs: seq<KingdomBuff>,
    activeRumors: seq<Rumor>,
    history: seq<GameLog>,
    initBlock: Option<InitBlock>)

  /** The service's side of a turn: whatever it replies to a request. */
  type Oracle = TurnRequest -> ServiceReply

  predicate IsInit(action: string) {
    action == INIT_ACTION
  }

  /** `logs.filter(log => log.type !== 'system')`. */
  function NonSystem(logs: seq<GameLog>): (r: seq<GameLog>)
    ensures |r| <= |logs|
    ensures forall i :: 0 <= i < |r| ==> r[i].kind != System && r[i] in logs
  {
    if |logs| == 0 then []
    else
      var rest := NonSystem(logs[..|logs| - 1]);
      if logs[|logs| - 1].kind == System then rest else rest + [logs[|logs| - 1]]
  }

  /** The filter keeps exactly the non-system logs. */
  lemma {:induction false} NonSystemMembers(logs: seq<GameLog>, x: GameLog)
    ensures x in NonSystem(logs) <==> x in logs && x.kind != System
    decreases |logs|
  {
    if |logs| > 0 {
      var init := logs[..|logs| - 1];
      NonSystemMembers(init, x);
      assert logs == init + [logs[|logs| - 1]];
    }
  }

  /** The filter keeps log order: filtering a log made of two parts filters
      each part and keeps the first part's entries first. */
  lemma {:induction false} NonSystemKeepsOrder(a: seq<GameLog>, b: seq<GameLog>)
    ensures NonSystem(a + b) == NonSystem(a) + NonSystem(b)
    decreases |b|
  {
    if |b| == 0 {
      assert a + b == a;
    } else {
      var ab := a + b;
      var init := b[..|b| - 1];
      assert ab[..|ab| - 1] == a + init;
      assert ab[|ab| - 1] == b[|b| - 1];
      NonSystemKeepsOrder(a, init);
    }
  }

  /** `xs.slice(-n)` for `n > 0`: the last `n` items, or all of them. */
  function LastN<T>(xs: seq<T>, n: nat): (r: seq<T>)
    requires n > 0
    ensures |r| == if |xs| <= n then |xs| else n
    ensures r == xs[|xs| - |r|..]
  {
    if |xs| <= n then xs else xs[|xs| - n..]
  }

  /** The history the request carries. */
  function RelevantHistory(logs: seq<GameLog>): seq<GameLog> {
    LastN(NonSystem(logs), HISTORY_WINDOW)
  }

  /** The window holds at most eight logs, none of them a system log, each
      taken from the log list; it is the tail of the non-system logs, as
      long as there are eight of them or all of them when there are fewer. */
  lemma HistoryWindow(logs: seq<GameLog>)
    ensures |RelevantHistory(logs)| <= HISTORY_WINDOW
    ensures |RelevantHistory(logs)| == if |NonSystem(logs)| < 8 then |NonSystem(logs)| else 8
    ensures forall i :: 0 <= i < |RelevantHistory(logs)| ==>
      RelevantHistory(logs)[i].kind != System && RelevantHistory(logs)[i] in logs
    ensures NonSystem(logs) == NonSystem(logs)[..|NonSystem(logs)| - |RelevantHistory(logs)|] + RelevantHistory(logs)
  {
    var ns := NonSystem(logs);
    var r := RelevantHistory(logs);
    assert r == ns[|ns| - |r|..];
    forall i | 0 <= i < |r| ensures r[i].kind != System && r[i] in logs {
      assert r[i] == ns[|ns| - |r| + i];
    }
  }

  /** A system log never enters the window and does not push anything out;
      a non-system log enters it as its newest entry. */
  lemma {:induction false} HistoryAfterAppend(logs: seq<GameLog>, log: GameLog)
    ensures log.kind == System ==> RelevantHistory(logs + [log]) == RelevantHistory(logs)
    ensures log.kind != System ==>
      |RelevantHistory(logs + [log])| > 0 &&
      RelevantHistory(logs + [log])[|RelevantHistory(logs + [log])| - 1] == log
  {
    assert (logs + [log])[..|logs + [log]| - 1] == logs;
  }

  /** Only the rumors not yet resolved are listed in the request. */
  function ActiveRumors(info: WorldInfo): (r: seq<Rumor>)
    ensures forall x :: x in r <==> x in info.rumors && !x.isResolved
  {
    Reconcile.Unresolved(info.rumors)
  }

  /** The request of one turn. */
  function BuildRequest(
    stats: KingdomStats, action: string, settings: GameSettings,
    info: WorldInfo, heritage: KingdomHeritage, buffs: seq<KingdomBuff>, logs: seq<GameLog>): (req: TurnRequest)
    ensures req.initBlock.Some? <==> IsInit(action)
    ensures req.initBlock.Some? ==>
      req.initBlock.value == InitBlock(settings.background, settings.leaderDescription, settings.leaderName)
    ensures req.action == action && req.stats == stats && req.settings == settings
    ensures req.entities == info.entities && req.buffs == buffs
    ensures req.activeRumors == Reconcile.Unresolved(info.rumors)
    ensures forall x :: x in req.activeRumors <==> x in info.rumors && !x.isResolved
    ensures |req.history| <= HISTORY_WINDOW
    ensures |req.history| == if |NonSystem(logs)| < 8 then |NonSystem(logs)| else 8
    ensures NonSystem(logs) == NonSystem(logs)[..|NonSystem(logs)| - |req.history|] + req.history
  {
    HistoryWindow(logs);
    TurnRequest(
      action, stats, settings, info.entities, buffs,
      ActiveRumors(info),
      RelevantHistory(logs),
      if IsInit(action) then Some(InitBlock(settings.background, settings.leaderDescription, settings.leaderName))
      else None)
  }

  /** The result the client falls back on when the call fails or answers
      without text. */
  const FALLBACK_NARRATIVE: string := "Hệ thống viễn thám gặp sự cố..."

  const ZERO_DELTA: StatsDelta := StatsDelta(0, 0, 0, 0, 0, 0, 0, 0, 0, 0)

  function FallbackResult(): TurnResult {
    TurnResult(
      narrative := FALLBACK_NARRATIVE,
      eventTitle := None,
      monthsPassed := Some(1),
      statsChange := ZERO_DELTA,
      suggestedActions := [],
      worldUpdate := None,
      otherKingdomsActions := None,
      politicalUpdate := None,
      buffsUpdate := None,
      initialStats := None,
      isGameOver := false,
      gameOverReason := None)
  }

  /** `processGameTurn`: the decoded result when there is one, otherwise the
      fallback; it never fails. */
  function ProcessGameTurn(reply: ServiceReply): (r: TurnResult)
    ensures reply.Parsed? ==> r == reply.result
    ensures !reply.Parsed? ==> r == FallbackResult()
  {
    match reply
    case Parsed(result) => result
    case EmptyText => FallbackResult()
    case CallFailed => FallbackResult()
  }

  /** The fallback is an ordinary one-month turn that changes nothing:
      all ten deltas zero, no game over, no choices, no updates of any kind. */
  lemma FallbackShape(reply: ServiceReply)
    requires !reply.Parsed?
    ensures var r := ProcessGameTurn(reply);
      && r.statsChange == StatsDelta(0, 0, 0, 0, 0, 0, 0, 0, 0, 0)
      && !r.isGameOver && r.monthsPassed == Some(1) && r.suggestedActions == []
      && r.worldUpdate.None? && r.politicalUpdate.None? && r.buffsUpdate.None?
      && r.otherKingdomsActions.None? && r.initialStats.None?
  {
  }
}

=== FILE: text.dfy ===
/**
 The few JavaScript string operations the core relies on: `trim` (for the
 non-blank checks of the forms), the save-file name sanitiser, and the
 decimal rendering of a number inside a template string.
 */
module Text {

  // ---------------------------------------------------------------- trim

  /** The characters `String.prototype.trim` removes: ECMAScript WhiteSpace
      (tab, vertical tab, form feed, space, no-break space, byte order mark
      and the Space_Separator category) and LineTerminator. */
  predicate IsJsSpace(c: char) {
    || c == '\t' || c == '\n' || c == '\U{000B}' || c == '\U{000C}' || c == '\r'
    || c == ' ' || c == '\U{00A0}' || c == '\U{1680}'
    || ('\U{2000}' <= c <= '\U{200A}')
    || c == '\U{2028}' || c == '\U{2029}' || c == '\U{202F}' || c == '\U{205F}'
    || c == '\U{3000}' || c == '\U{FEFF}'
  }

  function TrimStart(s: string): string
  {
    if |s| > 0 && IsJsSpace(s[0]) then TrimStart(s[1..]) else s
  }

  function TrimEnd(s: string): string
  {
    if |s| > 0 && IsJsSpace(s[|s| - 1]) then TrimEnd(s[..|s| - 1]) else s
  }

  /** `s.trim()`. */
  function Trim(s: string): string {
    TrimEnd(TrimStart(s))
  }

  /** Some character of `s` is not white space. */
  predicate HasVisibleChar(s: string) {
    exists i :: 0 <= i < |s| && !IsJsSpace(s[i])
  }

  lemma {:induction false} TrimStartVisible(s: string)
    ensures HasVisibleChar(TrimStart(s)) <==> HasVisibleChar(s)
    ensures |TrimStart(s)| > 0 ==> !IsJsSpace(TrimStart(s)[0])
    decreases |s|
  {
    if |s| > 0 && IsJsSpace(s[0]) {
      TrimStartVisible(s[1..]);
      if HasVisibleChar(s) {
        var i :| 0 <= i < |s| && !IsJsSpace(s[i]);
        assert s[1..][i - 1] == s[i];
      }
      if HasVisibleChar(s[1..]) {
        var i :| 0 <= i < |s[1..]| && !IsJsSpace(s[1..][i]);
        assert s[i + 1] == s[1..][i];
      }
    }
  }

  lemma {:induction false} TrimEndVisible(s: string)
    ensures HasVisibleChar(TrimEnd(s)) <==> HasVisibleChar(s)
    ensures |TrimEnd(s)| > 0 ==> !IsJsSpace(TrimEnd(s)[|TrimEnd(s)| - 1])
    decreases |s|
  {
    if |s| > 0 && IsJsSpace(s[|s| - 1]) {
      var p := s[..|s| - 1];
      TrimEndVisible(p);
      if HasVisibleChar(s) {
        var i :| 0 <= i < |s| && !IsJsSpace(s[i]);
        assert p[i] == s[i];
      }
      if HasVisibleChar(p) {
        var i :| 0 <= i < |p| && !IsJsSpace(p[i]);
        assert s[i] == p[i];
      }
    }
  }

  /** `s.trim().length > 0` holds exactly when `s` has a character that is
      not white space, and a non-empty trimmed string starts and ends with
      such a character. */
  lemma TrimNonEmpty(s: string)
    ensures |Trim(s)| > 0 <==> HasVisibleChar(s)
    ensures |Trim(s)| > 0 ==> !IsJsSpace(Trim(s)[0]) && !IsJsSpace(Trim(s)[|Trim(s)| - 1])
  {
    TrimStartVisible(s);
    TrimEndVisible(TrimStart(s));
    var t := Trim(s);
    if |t| > 0 {
      assert !IsJsSpace(t[|t| - 1]);
      TrimEndKeepsFirst(TrimStart(s));
    } else {
      assert !HasVisibleChar(t);
    }
  }

  lemma {:induction false} TrimEndKeepsFirst(s: string)
    requires |TrimEnd(s)| > 0
    ensures TrimEnd(s)[0] == s[0]
    decreases |s|
  {
    if |s| > 0 && IsJsSpace(s[|s| - 1]) {
      TrimEndKeepsFirst(s[..|s| - 1]);
    }
  }

  // ------------------------------------------------------ ASCII and names

  predicate IsAsciiAlnum(c: char) {
    ('a' <= c <= 'z') || ('A' <= c <= 'Z') || ('0' <= c <= '9')
  }

  function AsciiLower(c: char): char {
    if 'A' <= c <= 'Z' then (c as int + 32) as char else c
  }

  /** `name.replace(/[^a-z0-9]/gi, '_')`: with the `i` flag and without `u`,
      the class keeps exactly the ASCII letters and digits. */
  function ReplaceNonAlnum(name: string): (r: string)
  {
    seq(|name|, i requires 0 <= i < |name| => if IsAsciiAlnum(name[i]) then name[i] else '_')
  }

  /** `toLowerCase()` on a string that, after `ReplaceNonAlnum`, holds only
      ASCII letters, digits and `_`, where it agrees with ASCII lowering. */
  function LowerAscii(s: string): (r: string)
  {
    seq(|s|, i requires 0 <= i < |s| => AsciiLower(s[i]))
  }

  /** The kingdom-name part of a save file's name. */
  function SanitizeName(name: string): string {
    LowerAscii(ReplaceNonAlnum(name))
  }

  predicate IsSafeNameChar(c: char) {
    ('a' <= c <= 'z') || ('0' <= c <= '9') || c == '_'
  }

  /** The sanitised name has one character per character of the name, only
      lower-case letters, digits and `_`, keeps every ASCII letter and digit
      (lowered) in place, and sanitising it again changes nothing. */
  lemma SanitizeNameSpec(name: string)
    ensures |SanitizeName(name)| == |name|
    ensures forall i :: 0 <= i < |name| ==> IsSafeNameChar(SanitizeName(name)[i])
    ensures forall i :: 0 <= i < |name| ==>
      SanitizeName(name)[i] == if IsAsciiAlnum(name[i]) then AsciiLower(name[i]) else '_'
    ensures SanitizeName(SanitizeName(name)) == SanitizeName(name)
  {
  }

  // ------------------------------------------------------------- decimal

  function DigitChar(d: int): char
    requires 0 <= d < 10
  {
    ('0' as int + d) as char
  }

  /** A non-negative integer in decimal, as `${n}` renders it. */
  function NatToDecimal(n: nat): string
    decreases n
  {
    if n < 10 then [DigitChar(n)] else NatToDecimal(n / 10) + [DigitChar(n % 10)]
  }

  /** An integer in decimal, with a leading `-` when negative. */
  function IntToDecimal(n: int): string {
    if n < 0 then "-" + NatToDecimal(-n) else NatToDecimal(n)
  }

  predicate AllDigits(s: string) {
    forall i :: 0 <= i < |s| ==> '0' <= s[i] <= '9'
  }

  /** The value of a string of decimal digits. */
  function DigitsValue(s: string): nat
    requires AllDigits(s)
    decreases |s|
  {
    if |s| == 0 then 0 else DigitsValue(s[..|s| - 1]) * 10 + (s[|s| - 1] as int - '0' as int)
  }

  /** Rendering a number in decimal loses nothing: it is a non-empty string
      of digits whose value is the number. */
  lemma {:induction false} NatToDecimalRoundTrip(n: nat)
    ensures |NatToDecimal(n)| > 0 && AllDigits(NatToDecimal(n))
    ensures DigitsValue(NatToDecimal(n)) == n
    decreases n
  {
    if n >= 10 {
      NatToDecimalRoundTrip(n / 10);
      var s := NatToDecimal(n);
      assert s[..|s| - 1] == NatToDecimal(n / 10);
    }
  }

  /** A decimal integer as `${n}` writes it: digits, with one leading `-`
      when negative. */
  predicate IsIntText(s: string) {
    || (|s| > 0 && AllDigits(s))
    || (|s| > 1 && s[0] == '-' && AllDigits(s[1..]))
  }

  /** The value of a decimal integer. */
  function IntValue(s: string): int
    requires IsIntText(s)
  {
    if s[0] == '-' then 0 - DigitsValue(s[1..]) as int else DigitsValue(s)
  }

  /** Rendering any integer, negative ones included, loses nothing: the text
      is a decimal integer whose value is the number, and it starts with `-`
      exactly when the number is negative. */
  lemma IntToDecimalRoundTrip(n: int)
    ensures IsIntText(IntToDecimal(n))
    ensures IntValue(IntToDecimal(n)) == n
    ensures IntToDecimal(n)[0] == '-' <==> n < 0
  {
    if n < 0 {
      NatToDecimalRoundTrip(-n);
      assert IntToDecimal(n)[1..] == NatToDecimal(-n);
    } else {
      NatToDecimalRoundTrip(n);
    }
  }
}

=== FILE: turn.dfy ===
/**
 `handleAction` and `handleTaxChange` (`App.tsx`) as pure steps on the
 session. One turn is: the guard, the user log stamped with the pre-turn
 calendar, the request, the service's reply (a parameter), the three
 reconcilers, the new choices, and then either the game-over freeze or the
 ledger with the turn's logs stamped with the new calendar.

 Log ids come from the clock in the source; here they are two tokens,
 `startedAt` for the user log and `resolvedAt` for the logs of the reply.
 */
module Turn {
  import opened Types
  import opened AppState
  import Reconcile
  import Ledger
  import Service

  /** `actionType === ActionType.CUSTOM ? customInput! : actionType`. */
  function ActionText(kind: ActionType, customInput: Option<string>): (text: string)
    requires kind == Custom ==> customInput.Some?
    ensures kind == Custom ==> text == customInput.value
    ensures kind != Custom ==> text == kind.Text()
  {
    if kind == Custom then customInput.value else kind.Text()
  }

  /** `result.gameOverReason || 'Không rõ'`. */
  function ReasonText(reason: Option<string>): string {
    if reason.Some? && reason.value != "" then reason.value else "Không rõ"
  }

  function GameOverMessage(reason: Option<string>): string {
    "Vương quốc sụp đổ! Nguyên nhân: " + ReasonText(reason) + "."
  }

  const WORLD_EVENT_TEXT: string := "Sự kiện thế giới"

  /** The calendar stamp of a snapshot. */
  function StampOf(stats: KingdomStats): Stamp {
    YearMonth(stats.year, stats.month)
  }

  function UserLog(s: Session, text: string, startedAt: string): GameLog {
    GameLog(startedAt, User, text, StampOf(s.stats), None, None)
  }

  /** The history the turn sends: the log so far plus the user's action. */
  function LogsWithAction(s: Session, kind: ActionType, customInput: Option<string>, startedAt: string): seq<GameLog>
    requires kind == Custom ==> customInput.Some?
  {
    s.logs + [UserLog(s, ActionText(kind, customInput), startedAt)]
  }

  function RequestFor(s: Session, kind: ActionType, customInput: Option<string>, startedAt: string): Service.TurnRequest
    requires kind == Custom ==> customInput.Some?
  {
    Service.BuildRequest(
      s.stats, ActionText(kind, customInput), s.settings, s.worldInfo, s.heritage, s.activeBuffs,
      LogsWithAction(s, kind, customInput, startedAt))
  }

  /** The result the turn acts on: the service's reply, or the fallback. */
  function ResultFor(s: Session, kind: ActionType, customInput: Option<string>, service: Service.Oracle, startedAt: string): TurnResult
    requires kind == Custom ==> customInput.Some?
  {
    Service.ProcessGameTurn(service(RequestFor(s, kind, customInput, startedAt)))
  }

  /** The three reconcilers, each run only when its update is present. */
  function ReconcileAll(s: Session, result: TurnResult): (r: Session)
    ensures r == s.(worldInfo := r.worldInfo, heritage := r.heritage, activeBuffs := r.activeBuffs)
  {
    s.(
      worldInfo := if result.worldUpdate.Some? then Reconcile.ApplyWorldUpdate(s.worldInfo, result.worldUpdate.value) else s.worldInfo,
      heritage := if result.politicalUpdate.Some? then Reconcile.ApplyPoliticalUpdate(s.heritage, result.politicalUpdate.value) else s.heritage,
      activeBuffs := if result.buffsUpdate.Some? then Reconcile.ApplyBuffsUpdate(s.activeBuffs, result.buffsUpdate.value) else s.activeBuffs)
  }

  /** The logs a non-game-over turn appends, stamped with `stamp`. */
  function TurnLogs(result: TurnResult, stamp: Stamp, resolvedAt: string): seq<GameLog> {
    var ai := GameLog(resolvedAt + "_ai", Ai, result.narrative, stamp, result.eventTitle, None);
    if result.otherKingdomsActions.Some? && |result.otherKingdomsActions.value| > 0
    then [ai, GameLog(resolvedAt + "_world", WorldEvent, WORLD_EVENT_TEXT, stamp, None, result.otherKingdomsActions)]
    else [ai]
  }

  /** The logs a game-over turn appends, stamped with `stamp`. */
  function GameOverLogs(result: TurnResult, stamp: Stamp, resolvedAt: string): seq<GameLog> {
    [ GameLog(resolvedAt + "_ai", Ai, result.narrative, stamp, result.eventTitle, None),
      GameLog(resolvedAt + "_over", System, GameOverMessage(result.gameOverReason), stamp, None, None) ]
  }

  /** Everything after the service call, on a session whose log already
      holds the user's action. */
  function ResolveTurn(s: Session, result: TurnResult, resolvedAt: string): Session {
    var t := ReconcileAll(s, result).(currentChoices := result.suggestedActions, isProcessing := false);
    if result.isGameOver then
      t.(gameOver := true, logs := s.logs + GameOverLogs(result, StampOf(s.stats), resolvedAt))
    else
      var stats := Ledger.ApplyLedger(s.stats, result.statsChange, result.monthsPassed);
      t.(stats := stats, lastChange := Some(result.statsChange),
         logs := s.logs + TurnLogs(result, StampOf(stats), resolvedAt))
  }

  /** `handleAction`. */
  function HandleAction(
    s: Session, kind: ActionType, customInput: Option<string>,
    service: Service.Oracle, startedAt: string, resolvedAt: string): Session
    requires kind == Custom ==> customInput.Some?
  {
    if s.isProcessing || s.gameOver then s
    else
      var pending := s.(logs := LogsWithAction(s, kind, customInput, startedAt), isProcessing := true, currentChoices := []);
      ResolveTurn(pending, ResultFor(s, kind, customInput, service, startedAt), resolvedAt)
  }

  // --------------------------------------------------------------- lemmas

  /** While a turn is pending or after the game ended, an action does
      nothing at all. */
  lemma GuardIsNoOp(
    s: Session, kind: ActionType, customInput: Option<string>,
    service: Service.Oracle, startedAt: string, resolvedAt: string)
    requires kind == Custom ==> customInput.Some?
    requires s.isProcessing || s.gameOver
    ensures HandleAction(s, kind, customInput, service, startedAt, resolvedAt) == s
  {
  }

  /** The request carries the action text, the pre-turn stats, and a
      history window whose newest entry is the user's action stamped with
      the pre-turn calendar. */
  lemma RequestCarriesAction(s: Session, kind: ActionType, customInput: Option<string>, startedAt: string)
    requires kind == Custom ==> customInput.Some?
    ensures var req := RequestFor(s, kind, customInput, startedAt);
      && req.action == ActionText(kind, customInput)
      && req.stats == s.stats
      && |req.history| > 0
      && req.history[|req.history| - 1] == UserLog(s, ActionText(kind, customInput), startedAt)
      && req.history[|req.history| - 1].timestamp == YearMonth(s.stats.year, s.stats.month)
  {
    Service.HistoryAfterAppend(s.logs, UserLog(s, ActionText(kind, customInput), startedAt));
  }

  /** A game-over result ends the game and freezes the kingdom: stats
      (calendar included) and the last delta stay as they were, and the log
      gains the user's action, the narrative and the collapse notice, all
      three stamped with the pre-turn calendar; the reconcilers and the new
      choices still apply. */
  lemma GameOverFreezes(
    s: Session, kind: ActionType, customInput: Option<string>,
    service: Service.Oracle, startedAt: string, resolvedAt: string)
    requires kind == Custom ==> customInput.Some?
    requires !s.isProcessing && !s.gameOver
    requires ResultFor(s, kind, customInput, service, startedAt).isGameOver
    ensures var result := ResultFor(s, kind, customInput, service, startedAt);
      var r := HandleAction(s, kind, customInput, service, startedAt, resolvedAt);
      var stamp := YearMonth(s.stats.year, s.stats.month);
      && r.gameOver && !r.isProcessing
      && r.stats == s.stats && r.lastChange == s.lastChange
      && |r.logs| == |s.logs| + 3
      && r.logs[..|s.logs|] == s.logs
      && r.logs[|s.logs|].kind == User && r.logs[|s.logs|].timestamp == stamp
      && r.logs[|s.logs| + 1].kind == Ai && r.logs[|s.logs| + 1].content == result.narrative
      && r.logs[|s.logs| + 1].timestamp == stamp
      && r.logs[|s.logs| + 2].kind == System && r.logs[|s.logs| + 2].timestamp == stamp
      && r.logs[|s.logs| + 2].content == GameOverMessage(result.gameOverReason)
      && r.currentChoices == result.suggestedActions
  {
    var result := ResultFor(s, kind, customInput, service, startedAt);
    var pending := s.(logs := LogsWithAction(s, kind, customInput, startedAt), isProcessing := true, currentChoices := []);
    var r := HandleAction(s, kind, customInput, service, startedAt, resolvedAt);
    assert r == ResolveTurn(pending, result, resolvedAt);
    assert r.logs[..|s.logs|] == s.logs;
  }

  /** The collapse notice names the reason, or "Không rõ" when the reason
      is missing or empty. */
  lemma GameOverReasonDefault(reason: Option<string>)
    ensures reason.None? || reason.value == "" ==> GameOverMessage(reason) == "Vương quốc sụp đổ! Nguyên nhân: Không rõ."
    ensures reason.Some? && reason.value != "" ==>
      GameOverMessage(reason) == "Vương quốc sụp đổ! Nguyên nhân: " + reason.value + "."
  {
  }

  /** A turn that does not end the game applies the ledger, records the raw
      delta, offers the result's choices, and appends the user's action
      (pre-turn calendar) then the narrative, and a world-event entry only
      when other kingdoms acted, both stamped with the new calendar. */
  lemma NormalTurn(
    s: Session, kind: ActionType, customInput: Option<string>,
    service: Service.Oracle, startedAt: string, resolvedAt: string)
    requires kind == Custom ==> customInput.Some?
    requires !s.isProcessing && !s.gameOver
    requires !ResultFor(s, kind, customInput, service, startedAt).isGameOver
    ensures var result := ResultFor(s, kind, customInput, service, startedAt);
      var r := HandleAction(s, kind, customInput, service, startedAt, resolvedAt);
      var worldEvent := result.otherKingdomsActions.Some? && |result.otherKingdomsActions.value| > 0;
      && !r.gameOver && !r.isProcessing
      && r.stats == Ledger.ApplyLedger(s.stats, result.statsChange, result.monthsPassed)
      && r.lastChange == Some(result.statsChange)
      && r.currentChoices == result.suggestedActions
      && r.settings == s.settings && r.view == s.view
      && |r.logs| == |s.logs| + (if worldEvent then 3 else 2)
      && r.logs[..|s.logs|] == s.logs
      && r.logs[|s.logs|] == UserLog(s, ActionText(kind, customInput), startedAt)
      && r.logs[|s.logs| + 1].kind == Ai
      && r.logs[|s.logs| + 1].content == result.narrative
      && r.logs[|s.logs| + 1].timestamp == YearMonth(r.stats.year, r.stats.month)
      && (worldEvent ==>
            && r.logs[|s.logs| + 2].kind == WorldEvent
            && r.logs[|s.logs| + 2].entityActions == result.otherKingdomsActions
            && r.logs[|s.logs| + 2].timestamp == YearMonth(r.stats.year, r.stats.month))
  {
    var r := HandleAction(s, kind, customInput, service, startedAt, resolvedAt);
    assert r.logs[..|s.logs|] == s.logs;
  }

  /** A failed or empty reply still costs a month: the calendar moves on by
      exactly one month, every resource stays as it was, no choice is left
      to make, and the world, house and buffs are untouched. */
  lemma FailedCallCostsAMonth(
    s: Session, kind: ActionType, customInput: Option<string>,
    service: Service.Oracle, startedAt: string, resolvedAt: string)
    requires kind == Custom ==> customInput.Some?
    requires !s.isProcessing && !s.gameOver && Ledger.ValidStats(s.stats)
    requires !service(RequestFor(s, kind, customInput, startedAt)).Parsed?
    ensures var r := HandleAction(s, kind, customInput, service, startedAt, resolvedAt);
      && Ledger.AbsoluteMonth(r.stats.year, r.stats.month) == Ledger.AbsoluteMonth(s.stats.year, s.stats.month) + 1
      && r.stats == s.stats.(year := r.stats.year, month := r.stats.month)
      && r.currentChoices == []
      && r.worldInfo == s.worldInfo && r.heritage == s.heritage && r.activeBuffs == s.activeBuffs
      && !r.gameOver
  {
    Service.FallbackShape(service(RequestFor(s, kind, customInput, startedAt)));
    Ledger.ZeroDeltaKeepsResources(s.stats, Some(1));
  }

  /** A turn keeps the session invariant, provided the result does not turn
      the calendar back; the log only grows, keeping what it held. */
  lemma TurnPreservesInvariant(
    s: Session, kind: ActionType, customInput: Option<string>,
    service: Service.Oracle, startedAt: string, resolvedAt: string)
    requires kind == Custom ==> customInput.Some?
    requires SessionInvariant(s)
    requires var m := ResultFor(s, kind, customInput, service, startedAt).monthsPassed; m.None? || m.value >= 0
    ensures SessionInvariant(HandleAction(s, kind, customInput, service, startedAt, resolvedAt))
    ensures var r := HandleAction(s, kind, customInput, service, startedAt, resolvedAt);
      |s.logs| <= |r.logs| && r.logs[..|s.logs|] == s.logs
  {
    var r := HandleAction(s, kind, customInput, service, startedAt, resolvedAt);
    if !s.isProcessing && !s.gameOver {
      var result := ResultFor(s, kind, customInput, service, startedAt);
      if result.worldUpdate.Some? {
        var u := result.worldUpdate.value;
        if u.newEntities.Some? {
          Reconcile.WorldUpdateEntities(s.worldInfo, u, "");
        }
        Reconcile.WorldUpdateRumors(s.worldInfo, u);
      }
      if result.buffsUpdate.Some? {
        Reconcile.BuffsUpdateSpec(s.activeBuffs, result.buffsUpdate.value, "");
      }
      if !result.isGameOver {
        Ledger.CalendarForward(s.stats, result.statsChange, result.monthsPassed);
      }
      assert r.logs[..|s.logs|] == s.logs;
    }
  }

  /** For every kind but the custom one the text sent is the kind's own
      label, so the investment description the economy panel passes along
      never reaches the service or the log. */
  lemma InvestDescriptionDropped(
    s: Session, d1: Option<string>, d2: Option<string>,
    service: Service.Oracle, startedAt: string, resolvedAt: string)
    ensures HandleAction(s, Invest, d1, service, startedAt, resolvedAt) == HandleAction(s, Invest, d2, service, startedAt, resolvedAt)
    ensures RequestFor(s, Invest, d1, startedAt).action == "Đầu tư ngân sách"
  {
  }

  /** `handleTaxChange`: set the tax policy and nothing else. */
  function TaxChange(s: Session, rate: TaxRate): (r: Session)
    ensures r.stats.taxRate == Some(rate)
    ensures r.(stats := s.stats) == s && r.stats.(taxRate := s.stats.taxRate) == s.stats
  {
    s.(stats := s.stats.(taxRate := Some(rate)))
  }

  /** A policy change survives the next turn: the ledger carries the tax
      policy over, and nothing the service returns can set it. */
  lemma TaxPolicySurvivesTurn(
    s: Session, rate: TaxRate, kind: ActionType, customInput: Option<string>,
    service: Service.Oracle, startedAt: string, resolvedAt: string)
    requires kind == Custom ==> customInput.Some?
    ensures HandleAction(TaxChange(s, rate), kind, customInput, service, startedAt, resolvedAt).stats.taxRate == Some(rate)
  {
  }
}

=== FILE: types.dfy ===
/**
 The records the game keeps and the turn result the generative service
 returns. Every TypeScript union of string literals is a datatype here; every
 optional field (`x?: T`) is an `Option<T>`, whose `None` stands for the field
 being absent (or, for the few fields the client reads with `||`, falsy).
 */
module Types {

  datatype Option<+T> = None | Some(value: T) {
    /** The value, or `default` when absent (the source's `x || default`
        for fields whose only falsy value is absence). */
    function GetOr(default: T): T {
      match this
      case Some(v) => v
      case None => default
    }
  }

  // ---------------------------------------------------------------- stats

  datatype TaxRate = TaxHaven | Low | Standard | Extortion

  /** The kingdom's scalar state. `taxRate` is optional because a snapshot
      adopted from the service's `initialStats` need not carry it. */
  datatype KingdomStats = KingdomStats(
    year: int,
    month: int,
    gold: int,
    food: int,
    population: int,
    army: int,
    happiness: int,
    wood: int,
    stone: int,
    manpower: int,
    supplies: int,
    economicPower: int,
    taxRate: Option<TaxRate>)

  /** A turn's resource delta: the ten resource fields and nothing else, so a
      turn result cannot move the calendar or change the tax policy. */
  datatype StatsDelta = StatsDelta(
    gold: int,
    food: int,
    population: int,
    army: int,
    happiness: int,
    wood: int,
    stone: int,
    manpower: int,
    supplies: int,
    economicPower: int)

  datatype GameSettings = GameSettings(
    worldTheme: string,
    kingdomName: string,
    background: string,
    leaderName: string,
    leaderDescription: string)

  // ----------------------------------------------------------------- logs

  datatype EntityActionKind =
    | WarAction | DiplomacyAction | ExpansionAction | InternalAction | TradeAction | UnknownAction

  datatype EntityAction = EntityAction(
    entityId: string,
    entityName: string,
    actionType: EntityActionKind,
    description: string)

  datatype LogKind = User | Ai | System | WorldEvent

  /** A log's display time: "Năm y - Tháng m", or "Năm y" alone. */
  datatype Stamp = YearMonth(year: int, month: int) | YearOnly(year: int)

  datatype GameLog = GameLog(
    id: string,
    kind: LogKind,
    content: string,
    timestamp: Stamp,
    eventTitle: Option<string>,
    entityActions: Option<seq<EntityAction>>)

  // -------------------------------------------------------------- actions

  datatype ActionType =
    | Build | Farm | Recruit | Tax | Explore | Diplomacy | Festival | Custom | Invest
  {
    /** The enum's string value, which is what a non-custom action sends. */
    function Text(): string {
      match this
      case Build => "Xây dựng"
      case Farm => "Canh tác"
      case Recruit => "Tuyển quân"
      case Tax => "Thu thuế"
      case Explore => "Thám hiểm"
      case Diplomacy => "Ngoại giao"
      case Festival => "Tổ chức lễ hội"
      case Custom => "Hành động khác"
      case Invest => "Đầu tư ngân sách"
    }
  }

  datatype ActionStyle = Aggressive | Diplomatic | Economic | Neutral

  datatype SuggestedAction = SuggestedAction(buttonLabel: string, action: string, style: Option<ActionStyle>)

  // ------------------------------------------------------------ the world

  datatype EntityType = Kingdom | Empire | Tribe | CityState | Organization

  datatype Relation = Hostile | Neutral | Friendly | Ally | UnknownRelation

  /** A foreign polity. `liegeId` is a weak reference to another entity's id
      (or to the player, `"P"`); it may dangle or point at the entity itself. */
  datatype WorldEntity = WorldEntity(
    id: string,
    name: string,
    entityType: EntityType,
    relation: Relation,
    description: string,
    liegeId: Option<string>,
    color: string)

  datatype PersonStatus = Alive | Dead | Missing

  datatype FamilyRelation = Self | Spouse | Child | Sibling | Parent | Relative | NoRelation

  datatype Person = Person(
    id: string,
    name: string,
    role: string,
    age: int,
    personality: string,
    description: string,
    status: PersonStatus,
    familyRelation: Option<FamilyRelation>)

  datatype RumorType = Threat | Opportunity | Mystery | Gossip | Talent

  datatype Rumor = Rumor(
    id: string,
    title: string,
    content: string,
    rumorType: RumorType,
    possibleImpact: Option<string>,
    isResolved: bool)

  datatype WorldInfo = WorldInfo(entities: seq<WorldEntity>, people: seq<Person>, rumors: seq<Rumor>)

  datatype DivisionType = Capital | Duchy | County | Barony | Province

  datatype PoliticalDivision = PoliticalDivision(
    id: string,
    name: string,
    divisionType: DivisionType,
    rulerName: string,
    description: string)

  datatype KingdomHeritage = KingdomHeritage(royalFamily: seq<Person>, divisions: seq<PoliticalDivision>)

  datatype BuffType = Positive | Negative | Neutral

  datatype KingdomBuff = KingdomBuff(
    id: string,
    name: string,
    buffType: BuffType,
    description: string,
    effect: string)

  // ---------------------------------------------------------- turn result

  datatype WorldUpdate = WorldUpdate(
    newEntities: Option<seq<WorldEntity>>,
    newPeople: Option<seq<Person>>,
    newRumors: Option<seq<Rumor>>,
    resolvedRumorIds: Option<seq<string>>)

  datatype PoliticalUpdate = PoliticalUpdate(
    newFamilyMembers: Option<seq<Person>>,
    updatedFamilyMembers: Option<seq<Person>>,
    newDivisions: Option<seq<PoliticalDivision>>,
    updatedDivisions: Option<seq<PoliticalDivision>>)

  datatype BuffsUpdate = BuffsUpdate(
    newBuffs: Option<seq<KingdomBuff>>,
    removedBuffIds: Option<seq<string>>)

  /** What one turn of the generative service returns. The response schema
      makes `narrative`, `statsChange` (with all ten fields), `isGameOver`
      and `suggestedActions` mandatory, so they are plain fields here; the
      map grid it also demands is never kept by the client and is omitted. */
  datatype TurnResult = TurnResult(
    narrative: string,
    eventTitle: Option<string>,
    monthsPassed: Option<int>,
    statsChange: StatsDelta,
    suggestedActions: seq<SuggestedAction>,
    worldUpdate: Option<WorldUpdate>,
    otherKingdomsActions: Option<seq<EntityAction>>,
    politicalUpdate: Option<PoliticalUpdate>,
    buffsUpdate: Option<BuffsUpdate>,
    initialStats: Option<KingdomStats>,
    isGameOver: bool,
    gameOverReason: Option<string>)

  // ------------------------------------------------------------- id keys

  function EntityKey(e: WorldEntity): string { e.id }
  function PersonKey(p: Person): string { p.id }
  function RumorKey(r: Rumor): string { r.id }
  function DivisionKey(d: PoliticalDivision): string { d.id }
  function BuffKey(b: KingdomBuff): string { b.id }
}
